=== FILE: README.md ===
# wheat time utilities in Dafny

A model of the time package of the wheat common library. The package has
four parts:

- **Interval alignment** (`TimeUtils.alignWithInterval`). It floors a
  timestamp onto the grid `origin + k * interval`.
  - A non-zero calendar period makes it step through a time zone's calendar.
  - A duration-only interval goes by millisecond estimate plus a short
    correction loop.
- **`NanoStopWatch`**. It can be started and stopped repeatedly. It
  accumulates the lengths of its runs and formats an elapsed time as text.
- **`SplitNanoStopWatch`**. It wraps a `NanoStopWatch` and records splits
  (laps) with descriptions.
- **`StopWatch`**. A millisecond watch with one start and one stop reading
  and an `HH:MM:SS[.mmm]` formatter.

How the Java constructs are modelled:

- Instants and clock readings are unbounded integers. Alignment counts
  nanoseconds since the epoch; each watch uses the unit of its clock.
- The clocks (`System.nanoTime`, `System.currentTimeMillis`) are a `now`
  parameter of each operation.
- Each watch is an immutable datatype, and every mutator returns the new
  state.
- An `IllegalStateException` is an `Err` carrying the exception's message.
  A `NullPointerException` from `Objects.requireNonNull` is
  `Err(NullArgument(message))`, and a null argument is `None`.
- Java's truncating `/` and `%` on `long` are written out as
  `JavaArith.Quot` and `JavaArith.Rem`.
- A time zone's calendar arithmetic (`ZonedDateTime.plus` and `minus` of a
  `PeriodDuration`) is an abstract pair of functions, with nothing assumed
  of them. The calendar path is modelled on every input for which its loop
  ends (`TimeUtils.WalkEnds`). Steps that move every instant, `plus`
  forward and `minus` back (`TimeUtils.Advancing`), are one way to
  guarantee that.

Reference definitions that the contracts are stated against:

- `TimeUtils.GridFloor`: the closed-form floor onto a grid.
- `DecimalText.ParseClock`: a reader of `[[HH:]MM:]SS[.fraction]` text.
- `NanoStopWatch.TotalLength`: the total length of a sequence of runs.
- `SplitNanoStopWatch.Matching`: a filter over splits.
- `Gregorian.UtcInstant`: proleptic Gregorian instants in UTC.

Files:

| file | module |
|---|---|
| results.dfy | `Results`: `Option` and `Result` |
| time_units.dfy | `TimeUnits`: the fixed nanosecond and millisecond units |
| java_arith.dfy | `JavaArith`: truncating division, powers of ten |
| decimal_text.dfy | `DecimalText`: `Long.toString`, `%0Nd` padding, and the clock-text reader |
| gregorian.dfy | `Gregorian`: UTC calendar instants, used by the test scenarios |
| time_utils.dfy | `TimeUtils`: the alignment algorithms and the floor they compute |
| alignment_scenarios.dfy | `AlignmentScenarios`: the alignment unit tests, stated as lemmas |
| nano_stop_watch.dfy | `NanoStopWatch` |
| split_nano_stop_watch.dfy | `SplitNanoStopWatch` |
| stop_watch.dfy | `StopWatch` |

## Model

| member | source | states |
|---|---|---|
| TimeUtils.ToSeconds | wheat-common/src/main/java/com/github/lfeagan/wheat/time/TimeUtils.java:149-151 | the decimal denotes exactly the interval's nanoseconds divided by 10^9 |
| TimeUtils.IntervalMillis | wheat-common/src/main/java/com/github/lfeagan/wheat/time/TimeUtils.java:120 | the divisor of the estimate is the interval in whole milliseconds, truncated toward zero, and is zero exactly for intervals shorter than one millisecond |
| TimeUtils.EpochMilli | wheat-common/src/main/java/com/github/lfeagan/wheat/time/TimeUtils.java:119 | the millisecond of an instant is the one containing it (floor, also before 1970) |
| TimeUtils.GridFloor | wheat-common/src/main/java/com/github/lfeagan/wheat/time/TimeUtils.java:18-21 | the documented meaning of alignment: a grid point not after the timestamp and less than one interval below it |
| TimeUtils.GridFloorOfGridPoint | wheat-common/src/main/java/com/github/lfeagan/wheat/time/TimeUtils.java:18-21 | any grid point within one interval below the timestamp is the floor: the floor is unique |
| TimeUtils.GridFloorIsGreatest | wheat-common/src/main/java/com/github/lfeagan/wheat/time/TimeUtils.java:18-21 | every grid point not after the timestamp is at or below the floor |
| TimeUtils.GridFloorIdempotent | wheat-common/src/main/java/com/github/lfeagan/wheat/time/TimeUtils.java:18-21 | flooring a floor changes nothing |
| TimeUtils.GridFloorBuckets | wheat-common/src/main/java/com/github/lfeagan/wheat/time/TimeUtils.java:18-21 | every timestamp in a bucket floors to the bucket's start, and the next grid point starts the next bucket |
| TimeUtils.GridFloorOriginShift | wheat-common/src/main/java/com/github/lfeagan/wheat/time/TimeUtils.java:18-21 | moving the origin by whole intervals does not change the floor |
| TimeUtils.StepBack | wheat-common/src/main/java/com/github/lfeagan/wheat/time/TimeUtils.java:124-127 | the backward loop, stepping down from the origin, stops exactly at the floor of a timestamp before the origin |
| TimeUtils.StepForward | wheat-common/src/main/java/com/github/lfeagan/wheat/time/TimeUtils.java:129-138 | the forward loop plus its final step back returns the floor when the jump lands before the timestamp, the timestamp on an exact hit, and one interval below the jump when the jump overshoots |
| TimeUtils.ForwardCorrection | wheat-common/src/main/java/com/github/lfeagan/wheat/time/TimeUtils.java:133-138 | where the forward loop stops, keeping an exact hit and otherwise stepping back once yields those same three outcomes |
| TimeUtils.TruncatedQuotient | wheat-common/src/main/java/com/github/lfeagan/wheat/time/TimeUtils.java:120 | a non-negative distance divided toward zero by a positive divisor is the greatest count of whole divisors within it; by a negative divisor it is zero or below and one more divisor exceeds the distance |
| JavaArith.QuotSign | wheat-common/src/main/java/com/github/lfeagan/wheat/time/TimeUtils.java:120 | Java's division of a non-negative number is non-negative for a positive divisor and not positive for a negative one |
| TimeUtils.EstimatedBeats | wheat-common/src/main/java/com/github/lfeagan/wheat/time/TimeUtils.java:119-120 | the estimate is the millisecond distance divided toward zero: for a positive divisor the greatest count of whole intervals within it, for a negative one zero or below, with the distance under one more interval |
| TimeUtils.DurationAlign | wheat-common/src/main/java/com/github/lfeagan/wheat/time/TimeUtils.java:114-140 | the duration algorithm, for intervals of either sign: the timestamp at the origin, a division by zero for intervals shorter than 1 ms in either direction, the floor before the origin, and after it the forward outcome; a negative interval after the origin lands one interval past the jump, after the timestamp |
| TimeUtils.AlignWithDuration | wheat-common/src/main/java/com/github/lfeagan/wheat/time/TimeUtils.java:109-141 | the null checks in order (timestamp, origin, interval) with their messages, then the duration algorithm |
| TimeUtils.NegativeJumpIsAbove | wheat-common/src/main/java/com/github/lfeagan/wheat/time/TimeUtils.java:119-129 | with a negative interval of at least 1 ms and a timestamp after the origin, the jump lands strictly after the timestamp, so the forward loop never runs |
| TimeUtils.NegativeIntervalOvershoot | wheat-common/src/main/java/com/github/lfeagan/wheat/time/TimeUtils.java:124-140 | with an interval of -1 ms, origin 0 and timestamp 10 ms, the result is 12 ms, after the timestamp |
| TimeUtils.WholeMillisJumpIsBelow | wheat-common/src/main/java/com/github/lfeagan/wheat/time/TimeUtils.java:119-129 | for whole-millisecond intervals the estimate never overshoots: the jump lands strictly before a timestamp after the origin |
| TimeUtils.DurationAlignsToFloor | wheat-common/src/main/java/com/github/lfeagan/wheat/time/TimeUtils.java:101-103 | for whole-millisecond intervals the duration overload returns exactly the floor, on both sides of the origin |
| TimeUtils.DurationStaysOnGrid | wheat-common/src/main/java/com/github/lfeagan/wheat/time/TimeUtils.java:119-140 | for any interval of at least 1 ms the result is a grid point less than one interval below the timestamp |
| TimeUtils.JumpOnGrid | wheat-common/src/main/java/com/github/lfeagan/wheat/time/TimeUtils.java:129 | the jump target and the point one interval below it are grid points |
| TimeUtils.DurationAlignIdempotent | wheat-common/src/main/java/com/github/lfeagan/wheat/time/TimeUtils.java:109-141 | aligning an aligned timestamp again returns it unchanged |
| TimeUtils.FractionalMillisOvershoot | wheat-common/src/main/java/com/github/lfeagan/wheat/time/TimeUtils.java:120 | with a 1.5 ms interval, origin 0 and timestamp 10 ms, the result is 12 ms, after the timestamp: the documented millisecond precision limit |
| TimeUtils.CalendarAlign | wheat-common/src/main/java/com/github/lfeagan/wheat/time/TimeUtils.java:61-86 | the calendar algorithm, for any steps whose loop ends: the timestamp at the origin; before it, the first backward step from the origin not after the timestamp; after it, the first forward step not before the timestamp, kept on an exact hit and otherwise stepped back once |
| TimeUtils.ForwardSteps | wheat-common/src/main/java/com/github/lfeagan/wheat/time/TimeUtils.java:74-84 | after the origin the result comes from a forward step count whose last step is the first one not before the timestamp |
| TimeUtils.BackwardSteps | wheat-common/src/main/java/com/github/lfeagan/wheat/time/TimeUtils.java:70-73 | before the origin the result is the backward step whose predecessor is after the timestamp and which itself is not |
| TimeUtils.WalkEndsAtOrigin | wheat-common/src/main/java/com/github/lfeagan/wheat/time/TimeUtils.java:62-65 | at the origin the calendar path needs no step, so it is defined for any steps, even ones that never move |
| TimeUtils.IterateDistance | wheat-common/src/main/java/com/github/lfeagan/wheat/time/TimeUtils.java:70-77 | with steps that move every instant, n steps move at least n nanoseconds in their direction |
| TimeUtils.AdvancingWalkEnds | wheat-common/src/main/java/com/github/lfeagan/wheat/time/TimeUtils.java:70-77 | with steps that move every instant, both loops of the calendar path end, whatever the timestamp and origin |
| TimeUtils.IterateIncreasing | wheat-common/src/main/java/com/github/lfeagan/wheat/time/TimeUtils.java:75-77 | repeated forward steps strictly increase, which is why the forward walk reaches the timestamp |
| TimeUtils.DecreasingIterate | wheat-common/src/main/java/com/github/lfeagan/wheat/time/TimeUtils.java:71-73 | repeated backward steps strictly decrease |
| TimeUtils.CalendarFloorWhenMinusInvertsPlus | wheat-common/src/main/java/com/github/lfeagan/wheat/time/TimeUtils.java:74-84 | when subtracting the period undoes adding it, the forward calendar path returns the greatest forward step from the origin that is not after the timestamp |
| TimeUtils.CalendarBackwardIsFirstStepNotAfter | wheat-common/src/main/java/com/github/lfeagan/wheat/time/TimeUtils.java:70-73 | before the origin the calendar path returns the greatest backward step from the origin that is not after the timestamp, and when adding the period undoes subtracting it, adding one period to the result passes the timestamp |
| TimeUtils.AlignWithInterval | wheat-common/src/main/java/com/github/lfeagan/wheat/time/TimeUtils.java:27-49 | the four null checks in order with their messages; a non-zero period takes the calendar path even with a non-zero duration, a zero period with a non-zero duration takes the duration path, and an all-zero interval returns the timestamp |
| TimeUtils.AlignWithPeriod | wheat-common/src/main/java/com/github/lfeagan/wheat/time/TimeUtils.java:96-98 | the Period overload is the dispatcher on that period with a zero duration: the null checks of timestamp, origin and zone with their messages, then the calendar outcome, or the timestamp for a zero period |
| AlignmentScenarios.LandsInBucket | wheat-common/src/main/java/com/github/lfeagan/wheat/time/TimeUtils.java:109-141 | a timestamp in the k-th bucket after the 2000 origin aligns to the k-th grid point |
| AlignmentScenarios.FineGrainedHourIntervals | wheat-common/src/test/java/com/github/lfeagan/wheat/time/TimeUtilsTest.java:15-37 | PT1H, PT2H and PT3H align 01:23:45 and 05:23:45 to 01:00, 04:00 and 03:00 |
| AlignmentScenarios.FineGrainedMinuteIntervals | wheat-common/src/test/java/com/github/lfeagan/wheat/time/TimeUtilsTest.java:39-61 | PT1M, PT2M and PT3M give 01:23, 05:22 and 07:21 |
| AlignmentScenarios.FineGrainedSecondIntervals | wheat-common/src/test/java/com/github/lfeagan/wheat/time/TimeUtilsTest.java:63-85 | PT1S, PT2S and PT5S give 01:23:45, 05:23:44 and 07:23:45 |
| AlignmentScenarios.FineGrainedMillisecondIntervals | wheat-common/src/test/java/com/github/lfeagan/wheat/time/TimeUtilsTest.java:87-115 | PT0.1S, PT0.2S and PT0.5S align 01:23:45.567 to .500, .400 and .500 |
| AlignmentScenarios.CenturyWalk | wheat-common/src/main/java/com/github/lfeagan/wheat/time/TimeUtils.java:70-77 | k century steps from 2000 reach the first instant of year 2000 ± 100k |
| AlignmentScenarios.BackwardCentury | wheat-common/src/main/java/com/github/lfeagan/wheat/time/TimeUtils.java:70-73 | a timestamp in the twentieth century aligns with P100Y from 2000 to 1900-01-01 |
| AlignmentScenarios.OldTime | wheat-common/src/test/java/com/github/lfeagan/wheat/time/TimeUtilsTest.java:117-125 | 1973-12-03T15:53:58Z aligned with P100Y from 2000 is 1900-01-01 |
| AlignmentScenarios.ForwardCentury | wheat-common/src/main/java/com/github/lfeagan/wheat/time/TimeUtils.java:74-84 | a timestamp strictly inside the n-th century after 2000 aligns to that century's first instant |
| AlignmentScenarios.CurrentTime | wheat-common/src/test/java/com/github/lfeagan/wheat/time/TimeUtilsTest.java:127-135 | 2023-12-03T15:53:58Z aligned with P100Y is 2000-01-01 |
| AlignmentScenarios.StarTrekTime | wheat-common/src/test/java/com/github/lfeagan/wheat/time/TimeUtilsTest.java:137-145 | 4123-12-03T15:53:58Z aligned with P100Y is 4100-01-01 |
| NanoStopWatch.CreateUnstarted | wheat-common/src/main/java/com/github/lfeagan/wheat/time/NanoStopWatch.java:49-51 | a new watch is idle with zero cumulative time, reads zero elapsed whatever the clock, starts, and refuses to stop with "Already stopped" |
| NanoStopWatch.Start | wheat-common/src/main/java/com/github/lfeagan/wheat/time/NanoStopWatch.java:61-68 | refused with "Already started" exactly when running; otherwise running, cumulative time kept, elapsed time counted from now |
| NanoStopWatch.CreateStarted | wheat-common/src/main/java/com/github/lfeagan/wheat/time/NanoStopWatch.java:43-47 | a fresh running watch with zero cumulative time whose elapsed time counts from now |
| NanoStopWatch.Stop | wheat-common/src/main/java/com/github/lfeagan/wheat/time/NanoStopWatch.java:86-93 | refused with "Already stopped" exactly when not running; otherwise stopped, the run's length added to the cumulative time and frozen as the elapsed time |
| NanoStopWatch.Restart | wheat-common/src/main/java/com/github/lfeagan/wheat/time/NanoStopWatch.java:79-84 | a new start only when none is set or a restart is asked for; the stop cleared; running flag and cumulative time untouched |
| NanoStopWatch.Reset | wheat-common/src/main/java/com/github/lfeagan/wheat/time/NanoStopWatch.java:95-99 | start, stop and cumulative time cleared; the running flag kept |
| NanoStopWatch.ResetWhileRunning | wheat-common/src/main/java/com/github/lfeagan/wheat/time/NanoStopWatch.java:95-99 | a running watch stays running through reset, so a later start is refused and a later stop adds the raw clock reading |
| NanoStopWatch.RestartDoesNotRun | wheat-common/src/main/java/com/github/lfeagan/wheat/time/NanoStopWatch.java:79-84 | start(boolean) on a stopped watch does not start it: stop is still refused |
| NanoStopWatch.UnstartedLifeCycle | wheat-common/src/test/java/com/github/lfeagan/wheat/time/NanoStopWatchTest.java:8-32 | an unstarted watch reads zero and refuses to stop; once started it runs with zero cumulative time; once stopped its elapsed and cumulative times are positive |
| NanoStopWatch.CumulativeSumsRuns | wheat-common/src/main/java/com/github/lfeagan/wheat/time/NanoStopWatch.java:102-109 | from a stopped watch any sequence of start/stop runs succeeds, the cumulative time grows by their total length, and the elapsed time is the last run's length |
| NanoStopWatch.FieldsDecompose | wheat-common/src/main/java/com/github/lfeagan/wheat/time/NanoStopWatch.java:168-174 | a non-negative elapsed time is hours, minutes, seconds, microseconds and nanoseconds, each within its radix |
| NanoStopWatch.ToString | wheat-common/src/main/java/com/github/lfeagan/wheat/time/NanoStopWatch.java:167-201 | the text of a non-negative elapsed time reads back as its whole seconds and its microseconds in six digits; it has a colon exactly from one minute on; from one minute to 100 hours it is 15 characters, `HH:MM:SS.UUUUUU`, whose two-digit fields are the whole hours, the minutes past the hour and the seconds past the minute; below one minute it is 8 characters, `S.UUUUUU`, under ten seconds and 9 from ten seconds on |
| NanoStopWatch.ShortFormWidth | wheat-common/src/main/java/com/github/lfeagan/wheat/time/NanoStopWatch.java:178-187 | below one minute the text is the unpadded seconds (a single `0` for none), a dot and six digits: 8 characters under ten seconds, 9 from ten on |
| NanoStopWatch.RenderRoundTrip | wheat-common/src/main/java/com/github/lfeagan/wheat/time/NanoStopWatch.java:178-199 | reading the rendered fields back gives the whole seconds and the microseconds, always written with six digits |
| NanoStopWatch.RenderShape | wheat-common/src/main/java/com/github/lfeagan/wheat/time/NanoStopWatch.java:178-199 | the rendered text has a colon exactly when the elapsed time is at least one minute |
| NanoStopWatch.LongFormWidth | wheat-common/src/main/java/com/github/lfeagan/wheat/time/NanoStopWatch.java:189-198 | from one minute to 100 hours hours, minutes and seconds are each padded to two digits: 15 characters with `:` at indices 2 and 5 and `.` at index 8 |
| NanoStopWatch.MinuteBoundary | wheat-common/src/main/java/com/github/lfeagan/wheat/time/NanoStopWatch.java:178 | hours and minutes are both zero exactly below one minute |
| NanoStopWatch.FieldsOfMicros | wheat-common/src/main/java/com/github/lfeagan/wheat/time/NanoStopWatch.java:168-174 | the fields are the whole microseconds read in radices 10^6, 60 and 60 |
| NanoStopWatch.ClockFieldsOf | wheat-common/src/main/java/com/github/lfeagan/wheat/time/NanoStopWatch.java:170-172 | the hours field is the whole hours, the minutes field the whole minutes modulo 60 and the seconds field the whole seconds modulo 60 |
| NanoStopWatch.LongFormFields | wheat-common/src/main/java/com/github/lfeagan/wheat/time/NanoStopWatch.java:170-198 | from one minute to 100 hours the characters 0-1, 3-4 and 6-7 of the text are digits denoting the whole hours, the minutes past the hour and the seconds past the minute |
| NanoStopWatch.ToStringIgnoresNanos | wheat-common/src/main/java/com/github/lfeagan/wheat/time/NanoStopWatch.java:174 | two elapsed times with the same whole microseconds have the same text |
| SplitNanoStopWatch.CreateUnstarted | wheat-common/src/main/java/com/github/lfeagan/wheat/time/SplitNanoStopWatch.java:33-35 | a new split watch is idle, has no splits and no cumulative time, starts at any clock reading, and refuses to split with "Stop watch has not been started" until it does |
| SplitNanoStopWatch.NewSplit | wheat-common/src/main/java/com/github/lfeagan/wheat/time/SplitNanoStopWatch.java:139-144 | a split ends now, starts at the given start, and records the distance between them and its description |
| SplitNanoStopWatch.NewAnonymousSplit | wheat-common/src/main/java/com/github/lfeagan/wheat/time/SplitNanoStopWatch.java:135-137 | the one-argument constructor is the described one with the empty description |
| SplitNanoStopWatch.Start | wheat-common/src/main/java/com/github/lfeagan/wheat/time/SplitNanoStopWatch.java:37-39 | refused, with the underlying watch's message, exactly when already running; otherwise running, with the underlying watch started and the splits kept |
| SplitNanoStopWatch.Stop | wheat-common/src/main/java/com/github/lfeagan/wheat/time/SplitNanoStopWatch.java:41-43 | refused, with the underlying watch's message, exactly when not running; otherwise stopped, with the run ended in the underlying watch and the splits kept |
| SplitNanoStopWatch.Reset | wheat-common/src/main/java/com/github/lfeagan/wheat/time/SplitNanoStopWatch.java:52-55 | no splits, the underlying watch reset, and its running flag unchanged |
| SplitNanoStopWatch.SplitAnonymous | wheat-common/src/main/java/com/github/lfeagan/wheat/time/SplitNanoStopWatch.java:61-72 | refused exactly when not running; otherwise exactly one anonymous split, starting at the watch's start or at the latest split's end, is appended and the watch is unchanged |
| SplitNanoStopWatch.SplitDescribed | wheat-common/src/main/java/com/github/lfeagan/wheat/time/SplitNanoStopWatch.java:79-90 | as split(), with the description recorded |
| SplitNanoStopWatch.SplitFromWatchStart | wheat-common/src/main/java/com/github/lfeagan/wheat/time/SplitNanoStopWatch.java:92-97 | refused exactly when not running; otherwise one split from the watch's start is appended, whatever splits exist |
| SplitNanoStopWatch.AnonymousIsEmptyDescription | wheat-common/src/main/java/com/github/lfeagan/wheat/time/SplitNanoStopWatch.java:61-90 | split() behaves as split("") |
| SplitNanoStopWatch.SplitKeepsChain | wheat-common/src/main/java/com/github/lfeagan/wheat/time/SplitNanoStopWatch.java:79-90 | chained splits stay chained: each starts where the previous one ended, the first at the watch's start |
| SplitNanoStopWatch.ChainTelescopes | wheat-common/src/main/java/com/github/lfeagan/wheat/time/SplitNanoStopWatch.java:61-90 | the lengths of chained splits add up to the time from the watch's start to the latest split's end |
| SplitNanoStopWatch.MatchingMembers | wheat-common/src/main/java/com/github/lfeagan/wheat/time/SplitNanoStopWatch.java:103-111 | a split is selected exactly when it is recorded and carries the description |
| SplitNanoStopWatch.MatchingAppend | wheat-common/src/main/java/com/github/lfeagan/wheat/time/SplitNanoStopWatch.java:103-111 | selection distributes over concatenation, so the recording order is kept |
| SplitNanoStopWatch.GetSplitsDescribed | wheat-common/src/main/java/com/github/lfeagan/wheat/time/SplitNanoStopWatch.java:103-111 | the loop returns the recorded splits with that description, in recording order, and no others |
| SplitNanoStopWatch.ResetKeepsSplitWatchRunning | wheat-common/src/test/java/com/github/lfeagan/wheat/time/SplitNanoStopWatchTest.java:11-25 | an unstarted watch refuses to split; after start and reset the splits are gone but the watch still runs, so the test's expectation of a stopped watch does not hold |
| StopWatch.Start | wheat-common/src/main/java/com/github/lfeagan/wheat/time/StopWatch.java:25-28 | the start reading is now, nothing has elapsed, and the current elapsed time counts from now |
| StopWatch.CreateWith | wheat-common/src/main/java/com/github/lfeagan/wheat/time/StopWatch.java:11-19 | the boolean constructor is a new watch, started when asked |
| StopWatch.Restart | wheat-common/src/main/java/com/github/lfeagan/wheat/time/StopWatch.java:39-44 | a new start only when none is set or a restart is asked for, in which case it is start(); nothing has elapsed afterwards |
| StopWatch.Stop | wheat-common/src/main/java/com/github/lfeagan/wheat/time/StopWatch.java:46-48 | the start is kept and the elapsed time becomes the distance from it (zero for a stop at clock reading 0) |
| StopWatch.Reset | wheat-common/src/main/java/com/github/lfeagan/wheat/time/StopWatch.java:50-53 | the state of a new watch: no elapsed time, no current elapsed time |
| StopWatch.StartStopMeasures | wheat-common/src/main/java/com/github/lfeagan/wheat/time/StopWatch.java:46-76 | started at t0 and stopped at t1 the watch measures t1 - t0, and a second stop replaces the end |
| StopWatch.FieldsDecompose | wheat-common/src/main/java/com/github/lfeagan/wheat/time/StopWatch.java:123-125 | a non-negative elapsed time is hours, minutes, seconds and milliseconds, each within its radix |
| StopWatch.MillisSuffixAsWritten | wheat-common/src/main/java/com/github/lfeagan/wheat/time/StopWatch.java:127-145 | for a residual in [0, 999] the suffix is a dot and digits whose value is the residual: three digits, but four at exactly 10, because the one-zero branch tests `residual > 10` |
| StopWatch.TenMillisAsWritten | wheat-common/src/main/java/com/github/lfeagan/wheat/time/StopWatch.java:127-145 | as written, 10 ms is rendered ".0010", which reads back as 10 ten-thousandths of a second |
| StopWatch.MillisSuffix | wheat-common/src/main/java/com/github/lfeagan/wheat/time/StopWatch.java:134 | the suffix the branch comment "[10,99]" describes: for a residual in [0, 999] a dot and three digits whose value is the residual |
| StopWatch.MillisSuffixesAgreeExceptTen | wheat-common/src/main/java/com/github/lfeagan/wheat/time/StopWatch.java:130-141 | the written and the corrected suffix agree exactly when the residual is not 10 |
| StopWatch.ClockRoundTrip | wheat-common/src/main/java/com/github/lfeagan/wheat/time/StopWatch.java:123-125 | the `HH:MM:SS` clock of a non-negative elapsed time reads back as its whole seconds, and the millisecond field is the remainder |
| StopWatch.FormatRoundTrip | wheat-common/src/main/java/com/github/lfeagan/wheat/time/StopWatch.java:119-150 | reading the text back gives the whole seconds and, with milliseconds, the residual: three digits, but four at a residual of 10 |
| StopWatch.ClockFieldsOf | wheat-common/src/main/java/com/github/lfeagan/wheat/time/StopWatch.java:123-125 | the h field is the whole hours, m the whole minutes modulo 60 and s the whole seconds modulo 60 |
| StopWatch.FormatFields | wheat-common/src/main/java/com/github/lfeagan/wheat/time/StopWatch.java:123-149 | below 100 hours the text is 8, 12 or 13 characters with `:` at 2 and 5; its two-digit fields denote the whole hours, the minutes past the hour and the seconds past the minute; with milliseconds a `.` follows at 8 and the digits after it denote the residual milliseconds |
| StopWatch.FormatWidth | wheat-common/src/main/java/com/github/lfeagan/wheat/time/StopWatch.java:149 | below 100 hours the text is 8 characters, 12 with milliseconds, and 13 at a residual of 10; the corrected text is always 12 |
| StopWatch.FormatCorrectedRoundTrip | wheat-common/src/main/java/com/github/lfeagan/wheat/time/StopWatch.java:134 | with the suffix the branch comment describes, the milliseconds always read back with three digits |
| StopWatch.ToString | wheat-common/src/main/java/com/github/lfeagan/wheat/time/StopWatch.java:119-150 | the text of a watch with a non-negative elapsed time reads back as its whole seconds and, when asked for, its milliseconds, in 3 fraction digits, or width 4 at 10 ms as the text is written (no fraction without milliseconds); below 100 hours it is 8, 12 or 13 characters, `HH:MM:SS` with `:` at 2 and 5, whose fields are the whole hours, the minutes past the hour and the seconds past the minute, then `.` and the residual milliseconds when asked for; a watch that has not been stopped prints `00:00:00` or `00:00:00.000` |
| DecimalText.LongToString | wheat-common/src/main/java/com/github/lfeagan/wheat/time/NanoStopWatch.java:183 | `StringBuilder.append(long)`: the digits of a non-negative number with its value; a negative one is a minus sign before the digits of its magnitude; the form is canonical, `0` for zero and no leading zero otherwise; a number below ten has one digit |
| DecimalText.ZeroPadded | wheat-common/src/main/java/com/github/lfeagan/wheat/time/NanoStopWatch.java:186 | `String.format("%06d")` on a non-negative number: digits only, with the number's value, as wide as the width or as the number needs |
| DecimalText.PadToTwo | wheat-common/src/main/java/com/github/lfeagan/wheat/time/StopWatch.java:149 | the text of a non-negative number, digits only with the number's value, two characters below 100 |

## Left out

- `TimeUtils.instantFromRFC3339` and the time zone rules are not modelled. Parsing and zone data belong to java.time. The test scenarios use `Gregorian.UtcInstant` for UTC instants instead.
- Calendar arithmetic is abstract (`TimeUtils.Calendar`). Month lengths, daylight-saving gaps and overlaps, and the mix of period and duration inside `ZonedDateTime.plus` are not modelled. Nothing is assumed about them, except `TimeUtils.Advancing` where a lemma names it.
- TimeUtils.DurationAlign: requires that the timestamp is not before the origin when the interval is -1 ms or less. There the backward loop subtracts a negative interval and moves away from the timestamp. In java.time it would end only with a `DateTimeException` once it leaves the instant range; for an interval of `-PT2000000H` that takes about 4.4 million steps. The model has no such range, so it excludes this case. Every other negative interval is modelled: under 1 ms it divides by zero, and after the origin it returns one interval past the jump.
- TimeUtils.AlignWithDuration: requires the same of non-null arguments, for the same reason.
- TimeUtils.AlignWithInterval: requires the same of a duration-only interval. With a non-zero period it requires that the calendar loop ends (`TimeUtils.WalkEnds`). At the origin that always holds. Before the origin some backward step from it must reach the timestamp or below, and after the origin some forward step must reach the timestamp or above. Inputs where no step does are excluded. On those the source's walk either stands still for ever or moves away from the timestamp. Standing still loops for ever: one example is `P1M-30D` from 31 March, where adding one month gives 30 April and subtracting 30 days gives 31 March again. Moving away, as a period of `P-1D` or `P-100Y` does after the origin, ends only with a `DateTimeException` at the edge of the instant range, which the model does not have. Steps of mixed sign, or steps that stand still at some instants, are modelled whenever the loop ends.
- TimeUtils.AlignWithPeriod: requires the same ending calendar loop of the period's steps, for the same reason; at the origin it returns the timestamp whatever the period. A null `Period` is not modelled, because the parameter is a plain `Period`. In the source `PeriodDuration.of(null)` throws before any null check of the dispatcher.
- java.time's bounded instant range is not modelled. `Instant` and `ZonedDateTime` only reach years -999,999,999 to 999,999,999, and `plus`/`minus` throw a `DateTimeException` beyond them. Here instants are unbounded integers, so that exception is not an outcome of any model.
- `long` overflow is not modelled, in alignment or in the watches. Every arithmetic value is an unbounded integer. For example, `Duration.multipliedBy` overflowing into an `ArithmeticException` is not modelled.
- NanoStopWatch.ToString and StopWatch.ToString: the positions and values of the hour, minute and second fields are stated below 100 hours only. From 100 hours on, the hours field is wider and only the read-back of the whole text is stated.
- NanoStopWatch.ToString, NanoStopWatch.RenderRoundTrip, NanoStopWatch.RenderShape, StopWatch.FormatRoundTrip and StopWatch.ToString: stated for non-negative elapsed times only. The text of a negative time, with its Java minus signs in several fields, is computed but not characterised.
- `getElapsedDuration`, `getElapsedSeconds`, `getSplitsAverageElapsedTime` and `Split.getElapsedSeconds` are not modelled. They convert to `Duration` or `double`, and floating point is out of scope.
- `getSplits(Matcher)` is not modelled, because regular-expression matching is out of scope. `getSplits(String)` is modelled.
- The `printElapsedTime` methods are not modelled, because they only write to standard output or a `Writer`.
- The `toString()` overrides are not modelled separately. Each delegates to the modelled `toString(long)` / `toString(boolean)`, and `Split.toString` formats its elapsed time with `NanoStopWatch.toString(long)`.
- `String.format("%06d")` is modelled with ASCII digits. The default locale's zero digit, which `String.format` would use, is not modelled.
- A null split description is not modelled: descriptions are plain strings. In the source `split(null)` records it, and `getSplits(String)` with a null argument throws a `NullPointerException`.
- `synchronized` and the concurrent deque are not modelled. The model is sequential.
- `SplitNanoStopWatch.createStarted` is not modelled separately. It is `NanoStopWatch.CreateStarted` wrapped with no splits; its unstarted twin `createUnstarted` is `SplitNanoStopWatch.CreateUnstarted`.
- The trivial getters `getStart`, `getStop`, `Split.getElapsed` and `getDescription` are not modelled separately. They are field reads of the datatypes. `isRunning` is `SplitNanoStopWatch.IsRunning`, the underlying watch's running flag; its meaning is stated by the contracts of `Start`, `Stop` and the split operations.
- The `NanoStopWatch` unit test calls `elapsedNanos()` and `elapsedSeconds()`, which the class does not define. The first is read as `getElapsed` in NanoStopWatch.UnstartedLifeCycle; the second is a `double` and is left out.

## Findings

| source | as written | input that shows it | evidently intended | confidence | as-written member | corrected member |
|---|---|---|---|---|---|---|
| wheat-common/src/main/java/com/github/lfeagan/wheat/time/StopWatch.java:133 | the one-zero branch is taken for `residual > 10`, so 10 falls into the two-zero branch | an elapsed time of 10 ms with `toString(true)` gives `00:00:00.0010`, which reads as 1 ms | `residual >= 10`, as the comment "[10,99]" on the branch says, giving `00:00:00.010` | not executed | StopWatch.MillisSuffixAsWritten (shown by StopWatch.TenMillisAsWritten); `StopWatch.ToString` uses it | StopWatch.MillisSuffix, in StopWatch.FormatCorrected (proved by StopWatch.FormatCorrectedRoundTrip) |

=== FILE: alignment_scenarios.dfy ===
/** The alignment test scenarios (TimeUtilsTest), stated over the outcome
    predicates of the alignment so that they hold of every result the
    algorithms can return. Origin is 2000-01-01T00:00:00Z throughout. */
module AlignmentScenarios {
  import opened Results
  import opened TimeUtils
  import opened Gregorian
  import opened TimeUnits

  function Origin(): int
  {
    YearStart(2000)
  }

  /** A timestamp on 2000-01-01, as an offset from the origin. */
  lemma FirstDayOf2000(hour: int, minute: int, second: int, nano: int)
    ensures UtcInstant(2000, 1, 1, hour, minute, second, nano)
            == Origin() + ((hour * 60 + minute) * 60 + second) * NanosPerSecond + nano
  {
  }

  /** A duration-path result for a whole-millisecond interval is the grid
      point `k` intervals after the origin when the timestamp lies in that
      bucket. */
  lemma LandsInBucket(t: int, interval: int, k: int, r: Result<int, AlignError>)
    requires 0 < interval && interval % NanosPerMilli == 0
    requires Origin() + k * interval <= t < Origin() + k * interval + interval
    requires DurationOutcome(t, Origin(), interval, r)
    ensures r == Ok(Origin() + k * interval)
  {
    DurationAlignsToFloor(t, Origin(), interval, r);
    GridFloorOfGridPoint(t, Origin(), interval, k);
  }

  /** A scenario on 2000-01-01: when the floor `fh:fm:fs.fn` is the grid
      point `k` intervals after the origin and `h:m:s.n` lies in its bucket,
      every duration-path result is that floor. */
  lemma FirstDayScenario(h: int, m: int, s: int, n: int, interval: int, k: int, fh: int, fm: int, fs: int, fn: int)
    requires 0 < interval && interval % NanosPerMilli == 0
    requires ((fh * 60 + fm) * 60 + fs) * NanosPerSecond + fn == k * interval
    requires k * interval <= ((h * 60 + m) * 60 + s) * NanosPerSecond + n < k * interval + interval
    ensures forall r :: DurationOutcome(UtcInstant(2000, 1, 1, h, m, s, n), Origin(), interval, r) ==> r == Ok(UtcInstant(2000, 1, 1, fh, fm, fs, fn))
  {
    FirstDayOf2000(h, m, s, n);
    FirstDayOf2000(fh, fm, fs, fn);
    forall r | DurationOutcome(UtcInstant(2000, 1, 1, h, m, s, n), Origin(), interval, r)
      ensures r == Ok(UtcInstant(2000, 1, 1, fh, fm, fs, fn))
    {
      LandsInBucket(UtcInstant(2000, 1, 1, h, m, s, n), interval, k, r);
    }
  }

  /** PT1H, PT2H and PT3H: 01:23:45 floors to 01:00, 05:23:45 to 04:00
      and to 03:00. */
  lemma FineGrainedHourIntervals()
    ensures forall r :: DurationOutcome(UtcInstant(2000, 1, 1, 1, 23, 45, 0), Origin(), NanosPerHour, r) ==> r == Ok(UtcInstant(2000, 1, 1, 1, 0, 0, 0))
    ensures forall r :: DurationOutcome(UtcInstant(2000, 1, 1, 5, 23, 45, 0), Origin(), 2 * NanosPerHour, r) ==> r == Ok(UtcInstant(2000, 1, 1, 4, 0, 0, 0))
    ensures forall r :: DurationOutcome(UtcInstant(2000, 1, 1, 5, 23, 45, 0), Origin(), 3 * NanosPerHour, r) ==> r == Ok(UtcInstant(2000, 1, 1, 3, 0, 0, 0))
  {
    FirstDayScenario(1, 23, 45, 0, NanosPerHour, 1, 1, 0, 0, 0);
    FirstDayScenario(5, 23, 45, 0, 2 * NanosPerHour, 2, 4, 0, 0, 0);
    FirstDayScenario(5, 23, 45, 0, 3 * NanosPerHour, 1, 3, 0, 0, 0);
  }

  /** PT1M, PT2M and PT3M: 01:23:45 floors to 01:23, 05:23:45 to 05:22,
      07:23:45 to 07:21. */
  lemma FineGrainedMinuteIntervals()
    ensures forall r :: DurationOutcome(UtcInstant(2000, 1, 1, 1, 23, 45, 0), Origin(), NanosPerMinute, r) ==> r == Ok(UtcInstant(2000, 1, 1, 1, 23, 0, 0))
    ensures forall r :: DurationOutcome(UtcInstant(2000, 1, 1, 5, 23, 45, 0), Origin(), 2 * NanosPerMinute, r) ==> r == Ok(UtcInstant(2000, 1, 1, 5, 22, 0, 0))
    ensures forall r :: DurationOutcome(UtcInstant(2000, 1, 1, 7, 23, 45, 0), Origin(), 3 * NanosPerMinute, r) ==> r == Ok(UtcInstant(2000, 1, 1, 7, 21, 0, 0))
  {
    FirstDayScenario(1, 23, 45, 0, NanosPerMinute, 83, 1, 23, 0, 0);
    FirstDayScenario(5, 23, 45, 0, 2 * NanosPerMinute, 161, 5, 22, 0, 0);
    FirstDayScenario(7, 23, 45, 0, 3 * NanosPerMinute, 147, 7, 21, 0, 0);
  }

  /** PT1S, PT2S and PT5S: 01:23:45 stays, 05:23:45 floors to 05:23:44,
      07:23:47 to 07:23:45. */
  lemma FineGrainedSecondIntervals()
    ensures forall r :: DurationOutcome(UtcInstant(2000, 1, 1, 1, 23, 45, 0), Origin(), NanosPerSecond, r) ==> r == Ok(UtcInstant(2000, 1, 1, 1, 23, 45, 0))
    ensures forall r :: DurationOutcome(UtcInstant(2000, 1, 1, 5, 23, 45, 0), Origin(), 2 * NanosPerSecond, r) ==> r == Ok(UtcInstant(2000, 1, 1, 5, 23, 44, 0))
    ensures forall r :: DurationOutcome(UtcInstant(2000, 1, 1, 7, 23, 47, 0), Origin(), 5 * NanosPerSecond, r) ==> r == Ok(UtcInstant(2000, 1, 1, 7, 23, 45, 0))
  {
    FirstDayScenario(1, 23, 45, 0, NanosPerSecond, 5025, 1, 23, 45, 0);
    FirstDayScenario(5, 23, 45, 0, 2 * NanosPerSecond, 9712, 5, 23, 44, 0);
    FirstDayScenario(7, 23, 47, 0, 5 * NanosPerSecond, 5325, 7, 23, 45, 0);
  }

  /** PT0.1S, PT0.2S and PT0.5S applied to 01:23:45.567 give .500, .400
      and .500. */
  lemma FineGrainedMillisecondIntervals()
    ensures forall r :: DurationOutcome(UtcInstant(2000, 1, 1, 1, 23, 45, 567_000_000), Origin(), 100_000_000, r) ==> r == Ok(UtcInstant(2000, 1, 1, 1, 23, 45, 500_000_000))
    ensures forall r :: DurationOutcome(UtcInstant(2000, 1, 1, 1, 23, 45, 567_000_000), Origin(), 200_000_000, r) ==> r == Ok(UtcInstant(2000, 1, 1, 1, 23, 45, 400_000_000))
    ensures forall r :: DurationOutcome(UtcInstant(2000, 1, 1, 1, 23, 45, 567_000_000), Origin(), 500_000_000, r) ==> r == Ok(UtcInstant(2000, 1, 1, 1, 23, 45, 500_000_000))
  {
    FirstDayScenario(1, 23, 45, 567_000_000, 100_000_000, 50255, 1, 23, 45, 500_000_000);
    FirstDayScenario(1, 23, 45, 567_000_000, 200_000_000, 25127, 1, 23, 45, 400_000_000);
    FirstDayScenario(1, 23, 45, 567_000_000, 500_000_000, 10051, 1, 23, 45, 500_000_000);
  }

  /** A zone calendar whose P100Y steps move January 1 of a year to January 1
      a century later or earlier, as ISO 8601 arithmetic in UTC does. */
  ghost predicate CenturySteps(c: Calendar)
  {
    && Advancing(c)
    && (forall y :: c.plus(YearStart(y)) == YearStart(y + 100))
    && (forall y :: c.minus(YearStart(y)) == YearStart(y - 100))
  }

  /** k century steps from 2000 reach the year 2000 + 100k (or 2000 - 100k). */
  lemma {:induction false} CenturyWalk(c: Calendar, k: nat)
    requires CenturySteps(c)
    ensures Iterate(c.plus, YearStart(2000), k) == YearStart(2000 + 100 * k)
    ensures Iterate(c.minus, YearStart(2000), k) == YearStart(2000 - 100 * k)
  {
    if 0 < k {
      CenturyWalk(c, k - 1);
    }
  }

  /** A timestamp in the twentieth century aligns to 1900-01-01: one
      century step back from the origin. */
  lemma BackwardCentury(c: Calendar, t: int, r: int)
    requires CenturySteps(c)
    requires YearStart(1900) <= t < YearStart(2000)
    requires CalendarOutcome(t, Origin(), c, r)
    ensures r == YearStart(1900)
  {
    var k := BackwardSteps(t, Origin(), c, r);
    CenturyWalk(c, k);
    CenturyWalk(c, k - 1);
  }

  lemma OldTimeBounds()
    ensures YearStart(1900) <= UtcInstant(1973, 12, 3, 15, 53, 58, 0) < YearStart(2000)
  {
  }

  /** 1973-12-03T15:53:58Z aligned with P100Y is 1900-01-01. */
  lemma OldTime(c: Calendar, r: int)
    requires CenturySteps(c)
    requires CalendarOutcome(UtcInstant(1973, 12, 3, 15, 53, 58, 0), Origin(), c, r)
    ensures r == YearStart(1900)
  {
    OldTimeBounds();
    BackwardCentury(c, UtcInstant(1973, 12, 3, 15, 53, 58, 0), r);
  }

  /** A timestamp strictly inside the n-th century after 2000 aligns to
      the start of that century. */
  lemma ForwardCentury(c: Calendar, t: int, n: int, r: int)
    requires CenturySteps(c) && 1 <= n
    requires YearStart(2000 + 100 * (n - 1)) < t < YearStart(2000 + 100 * n)
    requires CalendarOutcome(t, Origin(), c, r)
    ensures r == YearStart(2000 + 100 * (n - 1))
  {
    if n > 1 {
      YearStartIncreasing(2000, 2000 + 100 * (n - 1));
    }
    assert Origin() < t;
    var k := ForwardSteps(t, Origin(), c, r);
    CenturyWalk(c, k);
    CenturyWalk(c, k - 1);
    CenturyContaining(t, n, k);
    assert c.minus(YearStart(2000 + 100 * n)) == YearStart(2000 + 100 * n - 100);
  }

  /** 2023-12-03T15:53:58Z aligned with P100Y is 2000-01-01 itself. */
  lemma CurrentTime(c: Calendar, r: int)
    requires CenturySteps(c)
    requires CalendarOutcome(UtcInstant(2023, 12, 3, 15, 53, 58, 0), Origin(), c, r)
    ensures r == YearStart(2000)
  {
    var t := UtcInstant(2023, 12, 3, 15, 53, 58, 0);
    assert YearStart(2000) < t < YearStart(2100);
    ForwardCentury(c, t, 1, r);
  }

  lemma StarTrekBounds()
    ensures YearStart(4100) < UtcInstant(4123, 12, 3, 15, 53, 58, 0) < YearStart(4200)
  {
    YearStartIncreasing(4100, 4123);
    YearStartIncreasing(4124, 4200);
  }

  /** Only one century boundary pair brackets a timestamp. */
  lemma CenturyContaining(t: int, n: int, k: int)
    requires YearStart(2000 + 100 * (n - 1)) < t < YearStart(2000 + 100 * n)
    requires YearStart(2000 + 100 * (k - 1)) < t <= YearStart(2000 + 100 * k)
    ensures k == n
  {
    if k < n {
      if k < n - 1 {
        YearStartIncreasing(2000 + 100 * k, 2000 + 100 * (n - 1));
      }
    } else if n < k {
      if n < k - 1 {
        YearStartIncreasing(2000 + 100 * n, 2000 + 100 * (k - 1));
      }
    }
  }

  /** 4123-12-03T15:53:58Z aligned with P100Y is 4100-01-01. */
  lemma StarTrekTime(c: Calendar, r: int)
    requires CenturySteps(c)
    requires CalendarOutcome(UtcInstant(4123, 12, 3, 15, 53, 58, 0), Origin(), c, r)
    ensures r == YearStart(4100)
  {
    StarTrekBounds();
    ForwardCentury(c, UtcInstant(4123, 12, 3, 15, 53, 58, 0), 22, r);
  }
}

=== FILE: decimal_text.dfy ===
/** Decimal rendering of integers as the stop watches produce it
    (`Long.toString`, `String.format("%06d", n)`), and a reader for the clock
    texts they build, so that formatting can be checked by reading back. */
module DecimalText {
  import opened Results
  import opened JavaArith

  predicate IsDigit(c: char)
  {
    '0' <= c <= '9'
  }

  predicate AllDigits(s: string)
  {
    forall i :: 0 <= i < |s| ==> IsDigit(s[i])
  }

  function DigitChar(d: int): (c: char)
    requires 0 <= d < 10
    ensures IsDigit(c) && c as int - '0' as int == d
  {
    ('0' as int + d) as char
  }

  /** The digits of `n`, most significant first, without leading zeros. */
  function Digits(n: nat): (s: string)
    ensures 1 <= |s| && AllDigits(s)
    ensures n == 0 ==> s == "0"
    ensures 0 < n ==> s[0] != '0'
    ensures |s| == 1 <==> n < 10
    decreases n
  {
    if n < 10 then [DigitChar(n)] else Digits(n / 10) + [DigitChar(n % 10)]
  }

  /** The number a string of digits denotes in base ten (zero for ""). */
  function ValueOf(s: string): nat
    requires AllDigits(s)
    decreases |s|
  {
    if |s| == 0 then 0 else 10 * ValueOf(s[..|s| - 1]) + (s[|s| - 1] as int - '0' as int)
  }

  /** Reading the digits of `n` gives back `n`. */
  lemma {:induction false} DigitsRoundTrip(n: nat)
    ensures ValueOf(Digits(n)) == n
    decreases n
  {
    if 10 <= n {
      var s := Digits(n);
      assert s[..|s| - 1] == Digits(n / 10);
      DigitsRoundTrip(n / 10);
    }
  }

  /** A number below 10^k takes at most k digits. */
  lemma {:induction false} DigitsWidth(n: nat, k: nat)
    requires 1 <= k && n < Pow10(k)
    ensures |Digits(n)| <= k
    decreases k
  {
    if 10 <= n {
      assert Pow10(k) == 10 * Pow10(k - 1);
      assert n / 10 < Pow10(k - 1);
      DigitsWidth(n / 10, k - 1);
    }
  }

  /** `Long.toString`: a minus sign before the digits of the magnitude,
      in canonical form: "0" for zero and no leading zero otherwise. */
  function LongToString(n: int): (s: string)
    ensures 0 <= n ==> AllDigits(s) && ValueOf(s) == n
    ensures n < 0 ==> 2 <= |s| && s[0] == '-' && AllDigits(s[1..]) && ValueOf(s[1..]) == -n
    ensures n == 0 ==> s == "0"
    ensures 0 < n ==> s[0] != '0'
    ensures n < 0 ==> s[1] != '0'
    ensures 0 <= n ==> (|s| == 1 <==> n < 10)
  {
    DigitsRoundTrip(if n < 0 then -n else n);
    if n < 0 then
      var s := "-" + Digits(-n);
      assert s[1..] == Digits(-n);
      s
    else
      Digits(n)
  }

  function Zeros(k: nat): (s: string)
    ensures |s| == k && forall i :: 0 <= i < k ==> s[i] == '0'
  {
    if k == 0 then "" else Zeros(k - 1) + "0"
  }

  /** Leading zeros do not change the value of a digit string. */
  lemma {:induction false} LeadingZeros(k: nat, s: string)
    requires AllDigits(s)
    ensures AllDigits(Zeros(k) + s)
    ensures ValueOf(Zeros(k) + s) == ValueOf(s)
    decreases |s|, k
  {
    var z := Zeros(k) + s;
    if |s| == 0 {
      assert z == Zeros(k);
      if 0 < k {
        assert z[..|z| - 1] == Zeros(k - 1) + s;
        LeadingZeros(k - 1, s);
      }
    } else {
      assert z[..|z| - 1] == Zeros(k) + s[..|s| - 1];
      LeadingZeros(k, s[..|s| - 1]);
    }
  }

  /** `String.format("%0<width>d", n)`: zeros inserted after the sign until
      the text is `width` characters long; never truncated. */
  function ZeroPadded(n: int, width: nat): (s: string)
    ensures 0 <= n ==> AllDigits(s) && ValueOf(s) == n
    ensures 0 <= n ==> |s| == if |Digits(n)| < width then width else |Digits(n)|
  {
    var magnitude := Digits(if n < 0 then -n else n);
    var room := if n < 0 then width - 1 else width;
    var padding := if |magnitude| < room then room - |magnitude| else 0;
    DigitsRoundTrip(if n < 0 then -n else n);
    LeadingZeros(padding, magnitude);
    if n < 0 then "-" + Zeros(padding) + magnitude else Zeros(padding) + magnitude
  }

  /** Java's `((n < 10L) ? "0" : "") + n`: one leading zero below ten. */
  function PadToTwo(n: int): (s: string)
    ensures 0 <= n ==> AllDigits(s) && ValueOf(s) == n
    ensures 0 <= n < 100 ==> |s| == 2
  {
    if n < 0 then "0" + LongToString(n)
    else if n < 10 then
      LeadingZeros(1, Digits(n));
      assert Zeros(1) == "0";
      "0" + LongToString(n)
    else if n < 100 then
      DigitsWidth(n, 2);
      LongToString(n)
    else
      LongToString(n)
  }

  /** The pieces of `s` between occurrences of `separator`. */
  function SplitOn(s: string, separator: char): (parts: seq<string>)
    ensures 1 <= |parts|
    decreases |s|
  {
    if |s| == 0 then [""]
    else
      var rest := SplitOn(s[1..], separator);
      if s[0] == separator then [""] + rest
      else [[s[0]] + rest[0]] + rest[1..]
  }

  /** A text without the separator is one piece. */
  lemma {:induction false} SplitWithoutSeparator(a: string, separator: char)
    requires separator !in a
    ensures SplitOn(a, separator) == [a]
    decreases |a|
  {
    if 0 < |a| {
      SplitWithoutSeparator(a[1..], separator);
      assert [a[0]] + a[1..] == a;
    }
  }

  /** A separator after a separator-free prefix splits off that prefix. */
  lemma {:induction false} SplitAtFirst(a: string, separator: char, b: string)
    requires separator !in a
    ensures SplitOn(a + [separator] + b, separator) == [a] + SplitOn(b, separator)
    decreases |a|
  {
    var s := a + [separator] + b;
    if |a| == 0 {
      assert s[1..] == b;
    } else {
      assert s[1..] == a[1..] + [separator] + b;
      SplitAtFirst(a[1..], separator, b);
      assert [a[0]] + a[1..] == a;
    }
  }

  /** A non-empty run of digits, read as a number. */
  function ReadField(s: string): (v: Option<nat>)
    ensures s != "" && AllDigits(s) ==> v == Some(ValueOf(s))
  {
    if s != "" && AllDigits(s) then Some(ValueOf(s)) else None
  }

  /** The whole seconds of a clock text without fraction: `S` or `H:M:S`,
      each field a non-empty run of digits. */
  function ClockSeconds(clock: string): Option<nat>
  {
    var fields := SplitOn(clock, ':');
    if |fields| == 1 then ReadField(fields[0])
    else if |fields| == 3 then
      var h, m, s := ReadField(fields[0]), ReadField(fields[1]), ReadField(fields[2]);
      if h.Some? && m.Some? && s.Some? then Some((h.value * 60 + m.value) * 60 + s.value) else None
    else None
  }

  /** What a clock text says: whole seconds, and the number written after
      the point together with how many digits it was written with. */
  datatype Reading = Reading(seconds: nat, fraction: nat, width: nat)

  /** Reads a clock text back: `S`, `S.F`, `H:M:S` or `H:M:S.F`, each field
      a non-empty run of digits (no fraction reads as zero). Anything else
      is `None`. */
  function ParseClock(text: string): Option<Reading>
  {
    var parts := SplitOn(text, '.');
    var fraction := if |parts| == 2 then ReadField(parts[1]) else Some(0);
    var seconds := ClockSeconds(parts[0]);
    if 2 < |parts| || fraction.None? || seconds.None? then None
    else Some(Reading(seconds.value, fraction.value, if |parts| == 2 then |parts[1]| else 0))
  }

  /** `S` with digits reads as its value. */
  lemma SecondsOnly(s: string)
    requires s != "" && AllDigits(s)
    ensures ClockSeconds(s) == Some(ValueOf(s))
  {
    DigitsHaveNoSeparator(s);
    SplitWithoutSeparator(s, ':');
  }

  /** `H:M:S` with digit fields reads as its count of seconds. */
  lemma HoursMinutesSeconds(h: string, m: string, s: string)
    requires AllDigits(h) && AllDigits(m) && AllDigits(s)
    requires h != "" && m != "" && s != ""
    ensures ClockSeconds(h + ":" + m + ":" + s).Some?
    ensures ClockSeconds(h + ":" + m + ":" + s).value == (ValueOf(h) * 60 + ValueOf(m)) * 60 + ValueOf(s)
    ensures '.' !in h + ":" + m + ":" + s
  {
    DigitsHaveNoSeparator(h);
    DigitsHaveNoSeparator(m);
    DigitsHaveNoSeparator(s);
    assert h + ":" + m + ":" + s == h + [':'] + (m + [':'] + s);
    SplitAtFirst(h, ':', m + [':'] + s);
    SplitAtFirst(m, ':', s);
    SplitWithoutSeparator(s, ':');
    ThreeFields(h + ":" + m + ":" + s, h, m, s);
  }

  lemma ThreeFields(clock: string, h: string, m: string, s: string)
    requires SplitOn(clock, ':') == [h, m, s]
    requires AllDigits(h) && AllDigits(m) && AllDigits(s)
    requires h != "" && m != "" && s != ""
    ensures ClockSeconds(clock).Some?
    ensures ClockSeconds(clock).value == (ValueOf(h) * 60 + ValueOf(m)) * 60 + ValueOf(s)
  {
  }

  /** A clock followed by '.' and a digit fraction reads as both. */
  lemma WithFraction(clock: string, seconds: nat, f: string)
    requires '.' !in clock && ClockSeconds(clock).Some? && ClockSeconds(clock).value == seconds
    requires f != "" && AllDigits(f)
    ensures ParseClock(clock + "." + f) == Some(Reading(seconds, ValueOf(f), |f|))
  {
    DigitsHaveNoSeparator(f);
    assert clock + "." + f == clock + ['.'] + f;
    SplitAtFirst(clock, '.', f);
    SplitWithoutSeparator(f, '.');
  }

  /** A clock without '.' reads as its whole seconds. */
  lemma WithoutFraction(clock: string, seconds: nat)
    requires '.' !in clock && ClockSeconds(clock).Some? && ClockSeconds(clock).value == seconds
    ensures ParseClock(clock) == Some(Reading(seconds, 0, 0))
  {
    SplitWithoutSeparator(clock, '.');
  }

  /** `H:M:S.F` with digit fields reads back as its value. */
  lemma ParseLongClock(h: string, m: string, s: string, f: string)
    requires AllDigits(h) && AllDigits(m) && AllDigits(s) && AllDigits(f)
    requires h != "" && m != "" && s != "" && f != ""
    ensures ParseClock(h + ":" + m + ":" + s + "." + f).Some?
    ensures ParseClock(h + ":" + m + ":" + s + "." + f).value.seconds == (ValueOf(h) * 60 + ValueOf(m)) * 60 + ValueOf(s)
    ensures ParseClock(h + ":" + m + ":" + s + "." + f).value.fraction == ValueOf(f)
    ensures ParseClock(h + ":" + m + ":" + s + "." + f).value.width == |f|
  {
    HoursMinutesSeconds(h, m, s);
    WithFraction(h + ":" + m + ":" + s, (ValueOf(h) * 60 + ValueOf(m)) * 60 + ValueOf(s), f);
  }

  /** `H:M:S` with digit fields reads back as its value. */
  lemma ParseLongClockWithoutFraction(h: string, m: string, s: string)
    requires AllDigits(h) && AllDigits(m) && AllDigits(s)
    requires h != "" && m != "" && s != ""
    ensures ParseClock(h + ":" + m + ":" + s).Some?
    ensures ParseClock(h + ":" + m + ":" + s).value.seconds == (ValueOf(h) * 60 + ValueOf(m)) * 60 + ValueOf(s)
    ensures ParseClock(h + ":" + m + ":" + s).value.fraction == 0
    ensures ParseClock(h + ":" + m + ":" + s).value.width == 0
  {
    HoursMinutesSeconds(h, m, s);
    WithoutFraction(h + ":" + m + ":" + s, (ValueOf(h) * 60 + ValueOf(m)) * 60 + ValueOf(s));
  }

  /** `S.F` with digit fields reads back as its value. */
  lemma ParseShortClock(s: string, f: string)
    requires AllDigits(s) && AllDigits(f)
    requires s != "" && f != ""
    ensures ParseClock(s + "." + f) == Some(Reading(ValueOf(s), ValueOf(f), |f|))
  {
    SecondsOnly(s);
    DigitsHaveNoSeparator(s);
    WithFraction(s, ValueOf(s), f);
  }

  lemma DigitsHaveNoSeparator(s: string)
    requires AllDigits(s)
    ensures '.' !in s && ':' !in s
  {
  }
}

=== FILE: gregorian.dfy ===
/** UTC instants of proleptic Gregorian dates (ISO 8601), in nanoseconds
    since 1970-01-01T00:00:00Z. Only used to state the test scenarios of the
    alignment in calendar terms; parsing of RFC 3339 text is not modelled. */
module Gregorian {
  import opened TimeUnits
  import JavaArith

  predicate IsLeap(y: int)
  {
    y % 4 == 0 && (y % 100 != 0 || y % 400 == 0)
  }

  /** Days from 0001-01-01 to January 1 of year `y` (floor divisions make
      the count correct for years before 1 as well). */
  function DaysBeforeYear(y: int): int
  {
    var p := y - 1;
    365 * p + p / 4 - p / 100 + p / 400
  }

  /** Counting multiples of `d` up to `y` gains one exactly at multiples. */
  lemma QuotientStep(y: int, d: int)
    requires 0 < d
    ensures y / d - (y - 1) / d == if y % d == 0 then 1 else 0
  {
    var q, r := y / d, y % d;
    if r == 0 {
      JavaArith.DivModUnique(y - 1, d, q - 1, d - 1);
    } else {
      JavaArith.DivModUnique(y - 1, d, q, r - 1);
    }
  }

  /** Each year is 365 days long, 366 in a leap year. */
  lemma YearLength(y: int)
    ensures DaysBeforeYear(y + 1) - DaysBeforeYear(y) == if IsLeap(y) then 366 else 365
  {
    QuotientStep(y, 4);
    QuotientStep(y, 100);
    QuotientStep(y, 400);
    if y % 100 == 0 {
      JavaArith.DivModUnique(y, 4, 25 * (y / 100), 0);
    }
    if y % 400 == 0 {
      JavaArith.DivModUnique(y, 100, 4 * (y / 400), 0);
    }
  }

  /** Days before the first of `month` within year `y`. */
  function DaysBeforeMonth(y: int, month: int): int
    requires 1 <= month <= 12
  {
    var cumulative := [0, 31, 59, 90, 120, 151, 181, 212, 243, 273, 304, 334];
    cumulative[month - 1] + (if month > 2 && IsLeap(y) then 1 else 0)
  }

  /** The instant `y-month-dayThour:minute:second.nanoZ`. */
  function UtcInstant(y: int, month: int, day: int, hour: int, minute: int, second: int, nano: int): int
    requires 1 <= month <= 12
  {
    var epochDay := DaysBeforeYear(y) - DaysBeforeYear(1970) + DaysBeforeMonth(y, month) + day - 1;
    epochDay * NanosPerDay + ((hour * 60 + minute) * 60 + second) * NanosPerSecond + nano
  }

  /** Midnight UTC on January 1 of year `y`. */
  function YearStart(y: int): int
  {
    UtcInstant(y, 1, 1, 0, 0, 0, 0)
  }

  /** The epoch anchor and a well-known date agree with the Unix clock. */
  lemma YearStartAnchors()
    ensures YearStart(1970) == 0
    ensures YearStart(2000) == 946_684_800 * NanosPerSecond
  {
  }

  /** Later years start later. */
  lemma {:induction false} YearStartIncreasing(a: int, b: int)
    requires a < b
    ensures YearStart(a) < YearStart(b)
    decreases b - a
  {
    YearLength(b - 1);
    if a < b - 1 {
      YearStartIncreasing(a, b - 1);
    }
  }
}

=== FILE: java_arith.dfy ===
/** Integer arithmetic shared by the models: powers of ten, and Java's `/`
    and `%` on longs, which truncate toward zero while Dafny's are
    Euclidean. Widths are not modelled: every quantity is an unbounded `int`. */
module JavaArith {

  /** 10 to the power `n`. */
  function Pow10(n: nat): (p: int)
    ensures 1 <= p
  {
    if n == 0 then 1 else 10 * Pow10(n - 1)
  }

  function Abs(x: int): (r: int)
    ensures 0 <= r && (r == x || r == -x)
  {
    if x < 0 then -x else x
  }

  /** Unique quotient and remainder of Euclidean division. */
  lemma DivModUnique(n: int, d: int, q: int, r: int)
    requires 0 < d
    requires 0 <= r < d
    requires n == q * d + r
    ensures n / d == q && n % d == r
  {
    var q', r' := n / d, n % d;
    assert (q - q') * d == r' - r;
    assert q - q' >= 1 ==> (q - q') * d >= d;
    assert q - q' <= -1 ==> (q' - q) * d >= d;
  }

  /** Java's `a / b` on longs: the quotient rounded toward zero. */
  function Quot(a: int, b: int): (q: int)
    requires b != 0
    ensures 0 <= a ==> 0 <= a - q * b < Abs(b)
    ensures a < 0 ==> -Abs(b) < a - q * b <= 0
  {
    if 0 <= a then
      (if 0 < b then a / b else -(a / -b))
    else
      (if 0 < b then -((-a) / b) else (-a) / (-b))
  }

  /** Java's `a % b` on longs: the remainder takes the sign of the dividend. */
  function Rem(a: int, b: int): (r: int)
    requires b != 0
    ensures Quot(a, b) * b + r == a
    ensures 0 <= a ==> 0 <= r < Abs(b)
    ensures a < 0 ==> -Abs(b) < r <= 0
  {
    a - Quot(a, b) * b
  }

  /** A non-negative count divided toward zero keeps the divisor's sign
      (or is zero). */
  lemma QuotSign(a: int, b: int)
    requires 0 <= a && b != 0
    ensures 0 < b ==> 0 <= Quot(a, b)
    ensures b < 0 ==> Quot(a, b) <= 0
  {
    if 0 < b {
      NaturalQuotient(a, b);
      assert Quot(a, b) == a / b;
    } else {
      NaturalQuotient(a, -b);
      assert Quot(a, b) == -(a / -b);
    }
  }

  /** Euclidean division of a natural number by a positive one. */
  lemma NaturalQuotient(a: int, b: int)
    requires 0 <= a && 0 < b
    ensures 0 <= a / b
  {
  }

  /** On a non-negative dividend and positive divisor Java's division
      agrees with Dafny's. */
  lemma QuotOfNatural(a: int, b: int)
    requires 0 <= a && 0 < b
    ensures Quot(a, b) == a / b && Rem(a, b) == a % b
  {
  }
}

=== FILE: nano_stop_watch.dfy ===
/** `NanoStopWatch`: a watch over the nanosecond clock that can be started
    and stopped repeatedly and sums the lengths of its runs. The clock
    (`System.nanoTime`) is the `now` parameter of each operation, and an
    `IllegalStateException` is an `Err` carrying the exception's message. */
module NanoStopWatch {
  import opened Results
  import opened JavaArith
  import opened DecimalText
  import opened TimeUnits

  /** The fields of the Java object; `start` and `stop` are clock readings,
      0 standing for "not set". */
  datatype Watch = Watch(running: bool, start: int, stop: int, cumulative: int)

  /** `createUnstarted`: every field at its initial value, so the watch is
      idle, reads zero whatever the clock says, can be started and refuses
      to stop. */
  function CreateUnstarted(): (w: Watch)
    ensures !w.running && GetCumulative(w) == 0
    ensures forall now :: GetElapsed(w, now) == 0
    ensures forall now :: Start(w, now).Ok? && Stop(w, now) == Err("Already stopped")
  {
    Watch(false, 0, 0, 0)
  }

  /** `getElapsed`: the length of the current run while running, of the last
      run otherwise. */
  function GetElapsed(w: Watch, now: int): int
  {
    if w.running then now - w.start else w.stop - w.start
  }

  /** `getCumulative`: the sum of the completed runs since the last reset. */
  function GetCumulative(w: Watch): int
  {
    w.cumulative
  }

  /** `start()`: refused on a running watch; otherwise a run begins now and
      the completed runs are kept. */
  function Start(w: Watch, now: int): (r: Result<Watch, string>)
    ensures r.Err? <==> w.running
    ensures r.Err? ==> r.error == "Already started"
    ensures r.Ok? ==> r.value.running && GetCumulative(r.value) == GetCumulative(w)
    ensures r.Ok? ==> forall later :: GetElapsed(r.value, later) == later - now
  {
    if w.running then Err("Already started")
    else Ok(w.(start := now, stop := 0, running := true))
  }

  /** `createStarted`: a fresh watch, started now. */
  function CreateStarted(now: int): (w: Watch)
    ensures w.running && GetCumulative(w) == 0
    ensures forall later :: GetElapsed(w, later) == later - now
  {
    Start(CreateUnstarted(), now).value
  }

  /** `stop()`: refused on a stopped watch; otherwise the run ends now, its
      length is added to the cumulative time and stays the elapsed time. */
  function Stop(w: Watch, now: int): (r: Result<Watch, string>)
    ensures r.Err? <==> !w.running
    ensures r.Err? ==> r.error == "Already stopped"
    ensures r.Ok? ==> !r.value.running
    ensures r.Ok? ==> GetCumulative(r.value) == GetCumulative(w) + GetElapsed(w, now)
    ensures r.Ok? ==> forall later :: GetElapsed(r.value, later) == GetElapsed(w, now)
  {
    if !w.running then Err("Already stopped")
    else Ok(w.(stop := now, cumulative := w.cumulative + (now - w.start), running := false))
  }

  /** `start(boolean)`: takes a new start time only when none is set or
      `restart` asks for it, always clears the stop time, and leaves both
      the running flag and the cumulative time alone. */
  function Restart(w: Watch, restart: bool, now: int): (r: Watch)
    ensures r.running == w.running && GetCumulative(r) == GetCumulative(w)
    ensures r.stop == 0
    ensures r.start == if w.start == 0 || restart then now else w.start
    ensures w.running ==> forall later :: GetElapsed(r, later) ==
                                          (if w.start == 0 || restart then later - now else GetElapsed(w, later))
  {
    var r := w.(stop := 0);
    if w.start == 0 || restart then r.(start := now) else r
  }

  /** `reset()`: clears both clock readings and the cumulative time; the
      running flag is kept. */
  function Reset(w: Watch): (r: Watch)
    ensures r.running == w.running
    ensures GetCumulative(r) == 0 && r.start == 0 && r.stop == 0
  {
    w.(start := 0, stop := 0, cumulative := 0)
  }

  /** Resetting a running watch leaves it running: a later `start()` is
      refused, and a later `stop()` counts from clock reading 0, so the
      cumulative time becomes the raw clock reading. */
  lemma ResetWhileRunning(w: Watch, now: int)
    requires w.running
    ensures Start(Reset(w), now) == Err("Already started")
    ensures Stop(Reset(w), now).Ok? && GetCumulative(Stop(Reset(w), now).value) == now
  {
  }

  /** `start(boolean)` on a watch that is not running does not start it:
      the elapsed time reads as minus the start reading, and `stop()` is
      refused. */
  lemma RestartDoesNotRun(w: Watch, restart: bool, now: int, later: int)
    requires !w.running
    ensures !Restart(w, restart, now).running
    ensures GetElapsed(Restart(w, restart, now), later) == -Restart(w, restart, now).start
    ensures Stop(Restart(w, restart, now), later) == Err("Already stopped")
  {
  }

  /** The unit test's life cycle: an unstarted watch reads zero and refuses
      to stop; started at `t1` it runs with no cumulative time and a
      positive elapsed time at `t2`; stopped at `t2` both are positive. */
  lemma UnstartedLifeCycle(t0: int, t1: int, t2: int, t3: int)
    requires t1 < t2
    ensures var w := CreateUnstarted();
      !w.running && GetElapsed(w, t0) == 0 && GetCumulative(w) == 0
      && Stop(w, t0) == Err("Already stopped")
    ensures var w := Start(CreateUnstarted(), t1).value;
      w.running && GetElapsed(w, t2) > 0 && GetCumulative(w) == 0
    ensures var w := Stop(Start(CreateUnstarted(), t1).value, t2).value;
      !w.running && GetElapsed(w, t3) > 0 && GetCumulative(w) > 0
  {
  }

  // ---------------------------------------------------------------------
  // Runs: the cumulative time is the sum of the completed runs
  // ---------------------------------------------------------------------

  /** One run of the watch, started at `from` and stopped at `to`. */
  datatype Run = Run(from: int, to: int)

  function TotalLength(runs: seq<Run>): int
  {
    if |runs| == 0 then 0
    else TotalLength(runs[..|runs| - 1]) + (runs[|runs| - 1].to - runs[|runs| - 1].from)
  }

  /** `start()` then `stop()` for each run in turn. */
  function Replay(w: Watch, runs: seq<Run>): Result<Watch, string>
  {
    if |runs| == 0 then Ok(w)
    else
      var last := runs[|runs| - 1];
      match Replay(w, runs[..|runs| - 1])
      case Err(e) => Err(e)
      case Ok(v) =>
        match Start(v, last.from)
        case Err(e) => Err(e)
        case Ok(u) => Stop(u, last.to)
  }

  /** From a stopped watch, any sequence of start/stop runs is accepted; the
      cumulative time grows by the total length of the runs and the elapsed
      time is the length of the last one. */
  lemma {:induction false} CumulativeSumsRuns(w: Watch, runs: seq<Run>)
    requires !w.running
    ensures Replay(w, runs).Ok?
    ensures !Replay(w, runs).value.running
    ensures GetCumulative(Replay(w, runs).value) == GetCumulative(w) + TotalLength(runs)
    ensures 0 < |runs| ==> forall now :: GetElapsed(Replay(w, runs).value, now)
                                          == runs[|runs| - 1].to - runs[|runs| - 1].from
  {
    if 0 < |runs| {
      CumulativeSumsRuns(w, runs[..|runs| - 1]);
    }
  }

  // ---------------------------------------------------------------------
  // toString(long)
  // ---------------------------------------------------------------------

  /** An elapsed time cut into clock fields by Java's truncating `/` and `%`. */
  datatype ClockFields = ClockFields(hours: int, minutes: int, seconds: int, micros: int, nanos: int)

  function Fields(elapsed: int): ClockFields
  {
    var hours := Quot(elapsed, NanosPerHour);
    var r1 := Rem(elapsed, NanosPerHour);
    var minutes := Quot(r1, NanosPerMinute);
    var r2 := Rem(r1, NanosPerMinute);
    var seconds := Quot(r2, NanosPerSecond);
    var r3 := Rem(r2, NanosPerSecond);
    ClockFields(hours, minutes, seconds, Quot(r3, 1000), Rem(r3, 1000))
  }

  /** A non-negative elapsed time is `h` hours, `m` minutes, `s` seconds,
      `micros` microseconds and `nanos` nanoseconds, each below its radix. */
  lemma FieldsDecompose(elapsed: int)
    requires 0 <= elapsed
    ensures var c := Fields(elapsed);
      0 <= c.hours && 0 <= c.minutes < 60 && 0 <= c.seconds < 60
      && 0 <= c.micros < 1_000_000 && 0 <= c.nanos < 1000
      && elapsed == c.hours * NanosPerHour + c.minutes * NanosPerMinute
                    + c.seconds * NanosPerSecond + c.micros * 1000 + c.nanos
  {
    var c := Fields(elapsed);
    var r1 := Rem(elapsed, NanosPerHour);
    var r2 := Rem(r1, NanosPerMinute);
    var r3 := Rem(r2, NanosPerSecond);
    QuotOfNatural(elapsed, NanosPerHour);
    QuotOfNatural(r1, NanosPerMinute);
    QuotOfNatural(r2, NanosPerSecond);
    QuotOfNatural(r3, 1000);
    assert c.minutes >= 60 ==> c.minutes * NanosPerMinute >= 60 * NanosPerMinute;
    assert c.seconds >= 60 ==> c.seconds * NanosPerSecond >= 60 * NanosPerSecond;
    assert c.micros >= 1_000_000 ==> c.micros * 1000 >= 1_000_000 * 1000;
  }

  /** The text of the clock fields: `S.UUUUUU` when hours and minutes are
      zero (`0.` for zero seconds), `HH:MM:SS.UUUUUU` otherwise, the
      microseconds zero-padded to six digits and the nanoseconds dropped. */
  function Render(c: ClockFields): string
  {
    var micros := ZeroPadded(c.micros, 6);
    if c.hours == 0 && c.minutes == 0 then
      (if c.seconds == 0 then "0." else LongToString(c.seconds) + ".") + micros
    else
      PadToTwo(c.hours) + ":" + PadToTwo(c.minutes) + ":" + PadToTwo(c.seconds) + "." + micros
  }

  /** `toString(long)`: a non-negative elapsed time reads back as its whole
      seconds and its microseconds in six digits; the colon form is used
      exactly from one minute on, and below a hundred hours it is
      `HH:MM:SS.UUUUUU` with every field two digits wide. */
  function ToString(elapsed: int): (s: string)
    ensures 0 <= elapsed ==> ParseClock(s).Some? && ParseClock(s).value.seconds == elapsed / NanosPerSecond
    ensures 0 <= elapsed ==> ParseClock(s).Some? && ParseClock(s).value.fraction == (elapsed % NanosPerSecond) / 1000
    ensures 0 <= elapsed ==> ParseClock(s).Some? && ParseClock(s).value.width == 6
    ensures 0 <= elapsed ==> (':' in s <==> NanosPerMinute <= elapsed)
    ensures NanosPerMinute <= elapsed < 100 * NanosPerHour ==> |s| == 15 && s[2] == ':' && s[5] == ':' && s[8] == '.'
    ensures NanosPerMinute <= elapsed < 100 * NanosPerHour ==>
              && |s| == 15
              && AllDigits(s[0..2]) && ValueOf(s[0..2]) == elapsed / NanosPerHour
              && AllDigits(s[3..5]) && ValueOf(s[3..5]) == (elapsed / NanosPerMinute) % 60
              && AllDigits(s[6..8]) && ValueOf(s[6..8]) == (elapsed / NanosPerSecond) % 60
    ensures 0 <= elapsed < NanosPerMinute ==> |s| == if elapsed < 10 * NanosPerSecond then 8 else 9
  {
    if 0 <= elapsed then
      RenderRoundTrip(elapsed);
      RenderShape(elapsed);
      if NanosPerMinute <= elapsed < 100 * NanosPerHour then
        LongFormWidth(elapsed);
        LongFormFields(elapsed);
        Render(Fields(elapsed))
      else if elapsed < NanosPerMinute then
        ShortFormWidth(elapsed);
        Render(Fields(elapsed))
      else
        Render(Fields(elapsed))
    else
      Render(Fields(elapsed))
  }

  /** The six microsecond digits of a non-negative elapsed time. */
  lemma MicrosText(micros: int)
    requires 0 <= micros < 1_000_000
    ensures AllDigits(ZeroPadded(micros, 6)) && ZeroPadded(micros, 6) != ""
    ensures |ZeroPadded(micros, 6)| == 6 && ValueOf(ZeroPadded(micros, 6)) == micros
  {
    assert Pow10(6) == 1_000_000;
    DigitsWidth(micros, 6);
  }

  /** Reading the text of a non-negative elapsed time back gives its whole
      seconds and its microseconds, written with six digits. */
  lemma RenderRoundTrip(elapsed: int)
    requires 0 <= elapsed
    ensures ParseClock(Render(Fields(elapsed))).Some?
    ensures ParseClock(Render(Fields(elapsed))).value.seconds == elapsed / NanosPerSecond
    ensures ParseClock(Render(Fields(elapsed))).value.fraction == (elapsed % NanosPerSecond) / 1000
    ensures ParseClock(Render(Fields(elapsed))).value.width == 6
  {
    var c := Fields(elapsed);
    FieldsDecompose(elapsed);
    MicrosText(c.micros);
    var micros := ZeroPadded(c.micros, 6);
    var total := (c.hours * 60 + c.minutes) * 60 + c.seconds;
    JavaArith.DivModUnique(elapsed, NanosPerSecond, total, c.micros * 1000 + c.nanos);
    JavaArith.DivModUnique(c.micros * 1000 + c.nanos, 1000, c.micros, c.nanos);
    if c.hours == 0 && c.minutes == 0 {
      var s := if c.seconds == 0 then "0" else LongToString(c.seconds);
      assert Render(Fields(elapsed)) == s + "." + micros;
      ParseShortClock(s, micros);
    } else {
      ParseLongClock(PadToTwo(c.hours), PadToTwo(c.minutes), PadToTwo(c.seconds), micros);
    }
  }

  /** The colon form is used exactly from one minute on. */
  lemma RenderShape(elapsed: int)
    requires 0 <= elapsed
    ensures ':' in Render(Fields(elapsed)) <==> NanosPerMinute <= elapsed
  {
    MinuteBoundary(elapsed);
    if Fields(elapsed).hours == 0 && Fields(elapsed).minutes == 0 {
      ShortFormHasNoColon(elapsed);
    } else {
      LongFormHasColon(elapsed);
    }
  }

  /** Hours and minutes are both zero exactly below one minute. */
  lemma MinuteBoundary(elapsed: int)
    requires 0 <= elapsed
    ensures Fields(elapsed).hours == 0 && Fields(elapsed).minutes == 0 <==> elapsed < NanosPerMinute
  {
    var c := Fields(elapsed);
    FieldsDecompose(elapsed);
    assert c.hours >= 1 ==> c.hours * NanosPerHour >= NanosPerHour;
    assert c.minutes >= 1 ==> c.minutes * NanosPerMinute >= NanosPerMinute;
    assert c.seconds * NanosPerSecond <= 59 * NanosPerSecond;
  }

  lemma ShortFormHasNoColon(elapsed: int)
    requires 0 <= elapsed && Fields(elapsed).hours == 0 && Fields(elapsed).minutes == 0
    ensures ':' !in Render(Fields(elapsed))
  {
    var c := Fields(elapsed);
    FieldsDecompose(elapsed);
    MicrosText(c.micros);
    var micros := ZeroPadded(c.micros, 6);
    var s := if c.seconds == 0 then "0" else LongToString(c.seconds);
    assert Render(Fields(elapsed)) == s + ['.'] + micros;
    DigitsHaveNoSeparator(s);
    DigitsHaveNoSeparator(micros);
  }

  lemma LongFormHasColon(elapsed: int)
    requires !(Fields(elapsed).hours == 0 && Fields(elapsed).minutes == 0)
    ensures ':' in Render(Fields(elapsed))
  {
    var h := PadToTwo(Fields(elapsed).hours);
    assert Render(Fields(elapsed))[|h|] == ':';
  }

  /** Below one minute the seconds are written bare, as `Long.toString`
      writes them: `S.UUUUUU` is 8 characters below ten seconds and 9 from
      ten seconds on. */
  lemma ShortFormWidth(elapsed: int)
    requires 0 <= elapsed < NanosPerMinute
    ensures |Render(Fields(elapsed))| == if elapsed < 10 * NanosPerSecond then 8 else 9
  {
    var c := Fields(elapsed);
    FieldsDecompose(elapsed);
    MinuteBoundary(elapsed);
    MicrosText(c.micros);
    assert c.seconds < 10 <==> elapsed < 10 * NanosPerSecond;
    if 10 <= c.seconds {
      DigitsWidth(c.seconds, 2);
    }
  }

  /** From one minute up to a hundred hours every field is padded to two
      digits: the text is `HH:MM:SS.UUUUUU`, fifteen characters with the
      separators in fixed places. */
  lemma LongFormWidth(elapsed: int)
    requires NanosPerMinute <= elapsed < 100 * NanosPerHour
    ensures |Render(Fields(elapsed))| == 15
    ensures Render(Fields(elapsed))[2] == ':' && Render(Fields(elapsed))[5] == ':' && Render(Fields(elapsed))[8] == '.'
  {
    var c := Fields(elapsed);
    FieldsDecompose(elapsed);
    MinuteBoundary(elapsed);
    assert c.hours >= 100 ==> c.hours * NanosPerHour >= 100 * NanosPerHour;
    MicrosText(c.micros);
    var h, m, sec, u := PadToTwo(c.hours), PadToTwo(c.minutes), PadToTwo(c.seconds), ZeroPadded(c.micros, 6);
    assert |h| == 2 && |m| == 2 && |sec| == 2 && |u| == 6;
    assert Render(Fields(elapsed)) == h + ":" + m + ":" + sec + "." + u;
  }

  /** The hours, minutes and seconds fields are the whole hours, the whole
      minutes past the hour and the whole seconds past the minute. */
  lemma ClockFieldsOf(elapsed: int)
    requires 0 <= elapsed
    ensures Fields(elapsed).hours == elapsed / NanosPerHour
    ensures Fields(elapsed).minutes == (elapsed / NanosPerMinute) % 60
    ensures Fields(elapsed).seconds == (elapsed / NanosPerSecond) % 60
  {
    var c := Fields(elapsed);
    FieldsDecompose(elapsed);
    var below := c.micros * 1000 + c.nanos;
    JavaArith.DivModUnique(elapsed, NanosPerHour, c.hours, c.minutes * NanosPerMinute + c.seconds * NanosPerSecond + below);
    JavaArith.DivModUnique(elapsed, NanosPerMinute, c.hours * 60 + c.minutes, c.seconds * NanosPerSecond + below);
    JavaArith.DivModUnique(elapsed, NanosPerSecond, (c.hours * 60 + c.minutes) * 60 + c.seconds, below);
    JavaArith.DivModUnique(c.hours * 60 + c.minutes, 60, c.hours, c.minutes);
    JavaArith.DivModUnique((c.hours * 60 + c.minutes) * 60 + c.seconds, 60, c.hours * 60 + c.minutes, c.seconds);
  }

  /** From one minute up to a hundred hours the three two-digit fields of
      the text are the whole hours, the minutes past the hour and the
      seconds past the minute. */
  lemma LongFormFields(elapsed: int)
    requires NanosPerMinute <= elapsed < 100 * NanosPerHour
    ensures var s := Render(Fields(elapsed));
      && |s| == 15
      && AllDigits(s[0..2]) && ValueOf(s[0..2]) == elapsed / NanosPerHour
      && AllDigits(s[3..5]) && ValueOf(s[3..5]) == (elapsed / NanosPerMinute) % 60
      && AllDigits(s[6..8]) && ValueOf(s[6..8]) == (elapsed / NanosPerSecond) % 60
  {
    var c := Fields(elapsed);
    LongFormWidth(elapsed);
    ClockFieldsOf(elapsed);
    FieldsDecompose(elapsed);
    MinuteBoundary(elapsed);
    assert c.hours >= 100 ==> c.hours * NanosPerHour >= 100 * NanosPerHour;
    var h, m, sec, u := PadToTwo(c.hours), PadToTwo(c.minutes), PadToTwo(c.seconds), ZeroPadded(c.micros, 6);
    var s := Render(c);
    assert s == h + ":" + m + ":" + sec + "." + u;
    assert s[0..2] == h;
    assert s[3..5] == m;
    assert s[6..8] == sec;
  }

  /** The clock fields of a non-negative elapsed time, read off its whole
      microseconds in the radices 10^6, 60, 60. */
  lemma FieldsOfMicros(elapsed: int)
    requires 0 <= elapsed
    ensures var c, u := Fields(elapsed), elapsed / 1000;
      c.micros == u % 1_000_000 && c.seconds == (u / 1_000_000) % 60
      && c.minutes == (u / 1_000_000 / 60) % 60 && c.hours == u / 1_000_000 / 60 / 60
  {
    var c := Fields(elapsed);
    FieldsDecompose(elapsed);
    var t := (c.hours * 60 + c.minutes) * 60 + c.seconds;
    assert t * NanosPerSecond == c.hours * NanosPerHour + c.minutes * NanosPerMinute + c.seconds * NanosPerSecond;
    assert (t * 1_000_000 + c.micros) * 1000 == t * NanosPerSecond + c.micros * 1000;
    JavaArith.DivModUnique(elapsed, 1000, t * 1_000_000 + c.micros, c.nanos);
    JavaArith.DivModUnique(elapsed / 1000, 1_000_000, t, c.micros);
    JavaArith.DivModUnique(t, 60, c.hours * 60 + c.minutes, c.seconds);
    JavaArith.DivModUnique(t / 60, 60, c.hours, c.minutes);
  }

  /** The text depends only on the whole microseconds: the nanoseconds
      below a microsecond are dropped. */
  lemma ToStringIgnoresNanos(a: int, b: int)
    requires 0 <= a && 0 <= b && a / 1000 == b / 1000
    ensures ToString(a) == ToString(b)
  {
    FieldsOfMicros(a);
    FieldsOfMicros(b);
    var ca, cb := Fields(a), Fields(b);
    assert ca.hours == cb.hours && ca.minutes == cb.minutes;
    assert ca.seconds == cb.seconds && ca.micros == cb.micros;
  }
}

=== FILE: results.dfy ===
/** Optional values and success/failure results shared by every module.
    `Option` stands for a Java reference that may be null; `Result` for a
    call that either returns a value or throws. */
module Results {

  datatype Option<+T> = None | Some(value: T)

  datatype Result<+T, +E> = Ok(value: T) | Err(error: E)
}

=== FILE: split_nano_stop_watch.dfy ===
/** `SplitNanoStopWatch`: a `NanoStopWatch` that also records splits. A
    split is a lap that ends at the clock reading of the call; the chained
    splits start where the previous one ended, or at the watch's start for
    the first one. The list of splits is a sequence in insertion order. */
module SplitNanoStopWatch {
  import opened Results
  import NanoStopWatch

  /** `SplitNanoStopWatch.Split`: a lap with its length and a description. */
  datatype Split = Split(start: int, stop: int, elapsed: int, description: string)

  /** A split whose recorded length is the distance between its ends. */
  predicate Measured(s: Split)
  {
    s.elapsed == s.stop - s.start
  }

  /** `new Split(start, description)`: a lap from `start` to now. */
  function NewSplit(start: int, description: string, now: int): (s: Split)
    ensures Measured(s) && s.start == start && s.stop == now
    ensures s.description == description
  {
    Split(start, now, now - start, description)
  }

  /** `new Split(start)`: an anonymous lap, described by the empty text. */
  function NewAnonymousSplit(start: int, now: int): (s: Split)
    ensures s == NewSplit(start, "", now)
  {
    Split(start, now, now - start, "")
  }

  datatype SplitWatch = SplitWatch(watch: NanoStopWatch.Watch, splits: seq<Split>)

  /** `createUnstarted()`: an idle watch with no splits, which starts and
      refuses to split until it does. */
  function CreateUnstarted(): (sw: SplitWatch)
    ensures !IsRunning(sw) && sw.splits == [] && NanoStopWatch.GetCumulative(sw.watch) == 0
    ensures forall now :: Start(sw, now).Ok? && SplitAnonymous(sw, now) == Err(NotStarted)
  {
    SplitWatch(NanoStopWatch.CreateUnstarted(), [])
  }

  function IsRunning(sw: SplitWatch): bool
  {
    sw.watch.running
  }

  /** `start()` and `stop()` act on the underlying watch only. */
  function Start(sw: SplitWatch, now: int): (r: Result<SplitWatch, string>)
    ensures r.Err? <==> NanoStopWatch.Start(sw.watch, now).Err?
    ensures r.Err? ==> r.error == NanoStopWatch.Start(sw.watch, now).error
    ensures r.Ok? ==> r.value == SplitWatch(NanoStopWatch.Start(sw.watch, now).value, sw.splits)
    ensures r.Err? <==> IsRunning(sw)
    ensures r.Ok? ==> IsRunning(r.value) && r.value.splits == sw.splits
  {
    match NanoStopWatch.Start(sw.watch, now)
    case Err(e) => Err(e)
    case Ok(w) => Ok(sw.(watch := w))
  }

  function Stop(sw: SplitWatch, now: int): (r: Result<SplitWatch, string>)
    ensures r.Err? <==> NanoStopWatch.Stop(sw.watch, now).Err?
    ensures r.Err? ==> r.error == NanoStopWatch.Stop(sw.watch, now).error
    ensures r.Ok? ==> r.value == SplitWatch(NanoStopWatch.Stop(sw.watch, now).value, sw.splits)
    ensures r.Err? <==> !IsRunning(sw)
    ensures r.Ok? ==> !IsRunning(r.value) && r.value.splits == sw.splits
  {
    match NanoStopWatch.Stop(sw.watch, now)
    case Err(e) => Err(e)
    case Ok(w) => Ok(sw.(watch := w))
  }

  /** `reset()`: resets the underlying watch and forgets every split. */
  function Reset(sw: SplitWatch): (r: SplitWatch)
    ensures r.splits == [] && r.watch == NanoStopWatch.Reset(sw.watch)
    ensures IsRunning(r) == IsRunning(sw)
  {
    SplitWatch(NanoStopWatch.Reset(sw.watch), [])
  }

  /** `getSplits()`: every split, oldest first. */
  function GetSplits(sw: SplitWatch): seq<Split>
  {
    sw.splits
  }

  /** Where a chained split begins: the watch's start for the first split,
      the end of the latest split after that. */
  function ChainStart(sw: SplitWatch): int
  {
    if |sw.splits| == 0 then sw.watch.start else sw.splits[|sw.splits| - 1].stop
  }

  const NotStarted: string := "Stop watch has not been started"

  /** `split()`: refused unless the watch runs; otherwise one anonymous split
      from the chain start to now is appended, and nothing else changes. */
  function SplitAnonymous(sw: SplitWatch, now: int): (r: Result<SplitWatch, string>)
    ensures r.Err? <==> !IsRunning(sw)
    ensures r.Err? ==> r.error == NotStarted
    ensures r.Ok? ==> r.value.watch == sw.watch
    ensures r.Ok? ==> r.value.splits == sw.splits + [NewSplit(ChainStart(sw), "", now)]
  {
    if !sw.watch.running then Err(NotStarted)
    else
      var splitStart := if |sw.splits| == 0 then sw.watch.start else sw.splits[|sw.splits| - 1].stop;
      Ok(sw.(splits := sw.splits + [NewAnonymousSplit(splitStart, now)]))
  }

  /** `split(description)`: as `split()`, with a description. */
  function SplitDescribed(sw: SplitWatch, description: string, now: int): (r: Result<SplitWatch, string>)
    ensures r.Err? <==> !IsRunning(sw)
    ensures r.Err? ==> r.error == NotStarted
    ensures r.Ok? ==> r.value.watch == sw.watch
    ensures r.Ok? ==> r.value.splits == sw.splits + [NewSplit(ChainStart(sw), description, now)]
  {
    if !sw.watch.running then Err(NotStarted)
    else
      var splitStart := if |sw.splits| == 0 then sw.watch.start else sw.splits[|sw.splits| - 1].stop;
      Ok(sw.(splits := sw.splits + [NewSplit(splitStart, description, now)]))
  }

  /** `splitFromNanoWatchStartTime(description)`: refused unless the watch
      runs; otherwise appends a split that starts at the watch's start,
      whatever splits exist already. */
  function SplitFromWatchStart(sw: SplitWatch, description: string, now: int): (r: Result<SplitWatch, string>)
    ensures r.Err? <==> !IsRunning(sw)
    ensures r.Err? ==> r.error == NotStarted
    ensures r.Ok? ==> r.value.watch == sw.watch
    ensures r.Ok? ==> r.value.splits == sw.splits + [NewSplit(sw.watch.start, description, now)]
  {
    if !sw.watch.running then Err(NotStarted)
    else Ok(sw.(splits := sw.splits + [NewSplit(sw.watch.start, description, now)]))
  }

  /** `split()` is `split("")`. */
  lemma AnonymousIsEmptyDescription(sw: SplitWatch, now: int)
    ensures SplitAnonymous(sw, now) == SplitDescribed(sw, "", now)
  {
  }

  // ---------------------------------------------------------------------
  // Chained splits
  // ---------------------------------------------------------------------

  /** The splits form a chain from the watch's start: each begins where the
      previous one ended, and each records its own length. */
  predicate Chained(sw: SplitWatch)
  {
    (0 < |sw.splits| ==> sw.splits[0].start == sw.watch.start)
    && (forall i :: 0 < i < |sw.splits| ==> sw.splits[i].start == sw.splits[i - 1].stop)
    && (forall i :: 0 <= i < |sw.splits| ==> Measured(sw.splits[i]))
  }

  /** A chained split keeps the chain. */
  lemma SplitKeepsChain(sw: SplitWatch, description: string, now: int)
    requires Chained(sw) && IsRunning(sw)
    ensures Chained(SplitDescribed(sw, description, now).value)
  {
  }

  /** The sum of the recorded lengths of the splits. */
  function TotalElapsed(splits: seq<Split>): int
  {
    if |splits| == 0 then 0 else TotalElapsed(splits[..|splits| - 1]) + splits[|splits| - 1].elapsed
  }

  /** The lengths of chained splits add up to the time from the watch's
      start to the end of the latest split. */
  lemma {:induction false} ChainTelescopes(sw: SplitWatch)
    requires Chained(sw) && 0 < |sw.splits|
    ensures TotalElapsed(sw.splits) == sw.splits[|sw.splits| - 1].stop - sw.watch.start
    decreases |sw.splits|
  {
    var n := |sw.splits|;
    if 1 < n {
      var shorter := sw.(splits := sw.splits[..n - 1]);
      assert Chained(shorter);
      ChainTelescopes(shorter);
    }
  }

  // ---------------------------------------------------------------------
  // getSplits(description)
  // ---------------------------------------------------------------------

  /** The splits described by `description`, in their original order. */
  function Matching(splits: seq<Split>, description: string): seq<Split>
  {
    if |splits| == 0 then []
    else
      var last := splits[|splits| - 1];
      Matching(splits[..|splits| - 1], description) + (if last.description == description then [last] else [])
  }

  /** Exactly the splits with that description are kept. */
  lemma {:induction false} MatchingMembers(splits: seq<Split>, description: string)
    ensures forall s :: s in Matching(splits, description) <==> s in splits && s.description == description
  {
    if 0 < |splits| {
      var n := |splits|;
      MatchingMembers(splits[..n - 1], description);
      assert splits == splits[..n - 1] + [splits[n - 1]];
    }
  }

  /** Selecting from two lists one after the other is selecting from the
      joined list: the order of the splits is kept. */
  lemma {:induction false} MatchingAppend(a: seq<Split>, b: seq<Split>, description: string)
    ensures Matching(a + b, description) == Matching(a, description) + Matching(b, description)
    decreases |b|
  {
    if 0 < |b| {
      var n := |b|;
      assert (a + b)[..|a + b| - 1] == a + b[..n - 1];
      MatchingAppend(a, b[..n - 1], description);
    } else {
      assert a + b == a;
    }
  }

  /** `getSplits(description)`: walks the splits oldest first and keeps those
      whose description equals the argument. */
  method GetSplitsDescribed(sw: SplitWatch, description: string) returns (matches: seq<Split>)
    ensures matches == Matching(sw.splits, description)
    ensures forall s :: s in matches <==> s in sw.splits && s.description == description
  {
    matches := [];
    var i := 0;
    while i < |sw.splits|
      invariant 0 <= i <= |sw.splits|
      invariant matches == Matching(sw.splits[..i], description)
    {
      var split := sw.splits[i];
      assert sw.splits[..i + 1][..i] == sw.splits[..i];
      if description == split.description {
        matches := matches + [split];
      }
      i := i + 1;
    }
    assert sw.splits[..i] == sw.splits;
    MatchingMembers(sw.splits, description);
  }

  // ---------------------------------------------------------------------
  // The scenario of the unit test
  // ---------------------------------------------------------------------

  /** An unstarted watch refuses to split; once started, `reset()` clears
      the splits but leaves the watch running, so a second `start()` is
      refused, where the unit test expects the watch to be stopped. */
  lemma ResetKeepsSplitWatchRunning(t0: int, t1: int, t2: int)
    ensures SplitAnonymous(CreateUnstarted(), t0) == Err(NotStarted)
    ensures GetSplits(CreateUnstarted()) == []
    ensures Start(CreateUnstarted(), t1).Ok?
    ensures var reset := Reset(Start(CreateUnstarted(), t1).value);
      IsRunning(reset) && GetSplits(reset) == [] && Start(reset, t2) == Err("Already started")
  {
  }
}

=== FILE: stop_watch.dfy ===
/** `StopWatch`: a millisecond watch over the wall clock that remembers one
    start and one stop reading, 0 standing for "not set". The clock
    (`System.currentTimeMillis`) is the `now` parameter of each operation;
    nothing here is ever refused. */
module StopWatch {
  import opened JavaArith
  import opened DecimalText
  import opened TimeUnits

  datatype Watch = Watch(start: int, stop: int)

  /** `new StopWatch()`. */
  function Create(): Watch
  {
    Watch(0, 0)
  }

  /** `getElapsed`: the distance from start to stop once stopped, else 0. */
  function GetElapsed(w: Watch): int
  {
    if w.stop != 0 then w.stop - w.start else 0
  }

  /** `getCurrentElapsed`: the time since the start, or 0 when not started. */
  function GetCurrentElapsed(w: Watch, now: int): int
  {
    if w.start == 0 then 0 else now - w.start
  }

  /** `start()`: a new start reading and no stop reading, so nothing has
      elapsed yet and the current elapsed time counts from now. */
  function Start(w: Watch, now: int): (r: Watch)
    ensures r.start == now && GetElapsed(r) == 0
    ensures now != 0 ==> forall later :: GetCurrentElapsed(r, later) == later - now
  {
    Watch(now, 0)
  }

  /** `new StopWatch(start)`: started now when `start` is set. */
  function CreateWith(start: bool, now: int): (r: Watch)
    ensures r == if start then Start(Create(), now) else Create()
  {
    if start then Watch(now, 0) else Watch(0, 0)
  }

  /** `start(boolean)`: takes a new start reading only when none is set or
      `restart` asks for it; the stop reading is always cleared. */
  function Restart(w: Watch, restart: bool, now: int): (r: Watch)
    ensures r.start == if w.start == 0 || restart then now else w.start
    ensures GetElapsed(r) == 0
    ensures w.start == 0 || restart ==> r == Start(w, now)
  {
    if w.start == 0 || restart then Watch(now, 0) else Watch(w.start, 0)
  }

  /** `stop()`: records the stop reading, whatever the state; the elapsed
      time is then the distance from the start (a stop at clock reading 0
      is indistinguishable from no stop). */
  function Stop(w: Watch, now: int): (r: Watch)
    ensures r.start == w.start
    ensures GetElapsed(r) == if now != 0 then now - w.start else 0
  {
    w.(stop := now)
  }

  /** `reset()`: back to the state of a new watch. */
  function Reset(w: Watch): (r: Watch)
    ensures r == Create()
    ensures GetElapsed(r) == 0 && forall now :: GetCurrentElapsed(r, now) == 0
  {
    Watch(0, 0)
  }

  /** Started at `t0` and stopped at `t1`, the watch measures `t1 - t0`
      until the next start or reset, and a further stop replaces the end. */
  lemma StartStopMeasures(w: Watch, t0: int, t1: int, t2: int)
    requires t1 != 0 && t2 != 0
    ensures GetElapsed(Stop(Start(w, t0), t1)) == t1 - t0
    ensures GetElapsed(Stop(Stop(Start(w, t0), t1), t2)) == t2 - t0
  {
  }

  // ---------------------------------------------------------------------
  // toString(boolean)
  // ---------------------------------------------------------------------

  /** An elapsed time cut into clock fields by Java's truncating `/` and `%`. */
  datatype ClockFields = ClockFields(hours: int, minutes: int, seconds: int, millis: int)

  function Fields(elapsed: int): ClockFields
  {
    var h := Quot(elapsed, MillisPerHour);
    var r1 := Rem(elapsed, MillisPerHour);
    var m := Quot(r1, MillisPerMinute);
    var r2 := Rem(r1, MillisPerMinute);
    ClockFields(h, m, Quot(r2, MillisPerSecond), Rem(r2, MillisPerSecond))
  }

  /** A non-negative elapsed time is `h` hours, `m` minutes, `s` seconds and
      `r` milliseconds, each below its radix. */
  lemma FieldsDecompose(elapsed: int)
    requires 0 <= elapsed
    ensures var c := Fields(elapsed);
      0 <= c.hours && 0 <= c.minutes < 60 && 0 <= c.seconds < 60 && 0 <= c.millis < 1000
      && elapsed == c.hours * MillisPerHour + c.minutes * MillisPerMinute
                    + c.seconds * MillisPerSecond + c.millis
  {
    var c := Fields(elapsed);
    var r1 := Rem(elapsed, MillisPerHour);
    var r2 := Rem(r1, MillisPerMinute);
    QuotOfNatural(elapsed, MillisPerHour);
    QuotOfNatural(r1, MillisPerMinute);
    QuotOfNatural(r2, MillisPerSecond);
    assert c.minutes >= 60 ==> c.minutes * MillisPerMinute >= 60 * MillisPerMinute;
    assert c.seconds >= 60 ==> c.seconds * MillisPerSecond >= 60 * MillisPerSecond;
  }

  /** The millisecond suffix as the source builds it: a dot, then two zeros,
      one zero or none before the residual. The one-zero branch is taken for
      `residual > 10`, so a residual of exactly 10 gets two zeros and four
      digits. */
  function MillisSuffixAsWritten(residual: int): (s: string)
    ensures 0 <= residual < 1000 ==> |s| == if residual == 10 then 5 else 4
    ensures 0 <= residual < 1000 ==> s[0] == '.' && AllDigits(s[1..]) && ValueOf(s[1..]) == residual
  {
    if residual >= 1000 then "." + LongToString(residual)
    else if residual >= 100 then
      DigitsWidth(residual, 3);
      "." + LongToString(residual)
    else if residual > 10 then
      LeadingZeros(1, Digits(residual));
      DigitsRoundTrip(residual);
      DigitsWidth(residual, 2);
      assert Zeros(1) == "0";
      assert (".0" + LongToString(residual))[1..] == Zeros(1) + Digits(residual);
      ".0" + LongToString(residual)
    else if 0 <= residual then
      LeadingZeros(2, Digits(residual));
      assert Zeros(2) == "00";
      assert residual == 10 ==> Digits(residual) == "10";
      assert (".00" + LongToString(residual))[1..] == Zeros(2) + Digits(residual);
      ".00" + LongToString(residual)
    else
      ".00" + LongToString(residual)
  }

  /** With the source's test, 10 ms is written with four digits: after
      `00:00:00` it reads as 10 ten-thousandths of a second, that is 1 ms. */
  lemma TenMillisAsWritten()
    ensures MillisSuffixAsWritten(10) == ".0010"
    ensures var text := "00:00:00" + MillisSuffixAsWritten(10);
      ParseClock(text).Some? && ParseClock(text).value.seconds == 0
      && ParseClock(text).value.fraction == 10 && ParseClock(text).value.width == 4
  {
    assert "00:00:00" + ".0010" == "00" + ":" + "00" + ":" + "00" + "." + "0010";
    ParseLongClock("00", "00", "00", "0010");
    assert Digits(10) == "10";
    DigitsRoundTrip(10);
    LeadingZeros(2, "10");
    assert Zeros(2) + "10" == "0010";
  }

  /** The millisecond suffix the branch comments describe, the residual
      in [10, 99] taking one zero: `.` and the residual padded to three
      digits. */
  function MillisSuffix(residual: int): (s: string)
    ensures 0 <= residual < 1000 ==>
      |s| == 4 && s[0] == '.' && AllDigits(s[1..]) && ValueOf(s[1..]) == residual
  {
    if residual >= 1000 then "." + LongToString(residual)
    else if residual >= 100 then
      DigitsWidth(residual, 3);
      "." + LongToString(residual)
    else if residual >= 10 then
      LeadingZeros(1, Digits(residual));
      DigitsRoundTrip(residual);
      DigitsWidth(residual, 2);
      assert Zeros(1) == "0";
      assert (".0" + LongToString(residual))[1..] == Zeros(1) + Digits(residual);
      ".0" + LongToString(residual)
    else if 0 <= residual then
      LeadingZeros(2, Digits(residual));
      assert Zeros(2) == "00";
      assert (".00" + LongToString(residual))[1..] == Zeros(2) + Digits(residual);
      ".00" + LongToString(residual)
    else
      ".00" + LongToString(residual)
  }

  /** The two suffixes differ only at a residual of 10. */
  lemma MillisSuffixesAgreeExceptTen(residual: int)
    ensures MillisSuffix(residual) == MillisSuffixAsWritten(residual) <==> residual != 10
  {
    if residual == 10 {
      assert |MillisSuffix(10)| == 4;
    }
  }

  /** `HH:MM:SS` of an elapsed time, each field at least two digits. */
  function Clock(elapsed: int): string
  {
    var c := Fields(elapsed);
    PadToTwo(c.hours) + ":" + PadToTwo(c.minutes) + ":" + PadToTwo(c.seconds)
  }

  /** The text `toString(boolean)` builds: the clock, then the millisecond
      suffix as written when asked for. */
  function Format(elapsed: int, wantMsec: bool): string
  {
    Clock(elapsed) + (if wantMsec then MillisSuffixAsWritten(Fields(elapsed).millis) else "")
  }

  /** The text with the corrected millisecond suffix. */
  function FormatCorrected(elapsed: int, wantMsec: bool): string
  {
    Clock(elapsed) + (if wantMsec then MillisSuffix(Fields(elapsed).millis) else "")
  }

  /** The clock of a non-negative elapsed time reads back as its whole
      seconds; its millisecond field is the remainder. */
  lemma ClockRoundTrip(elapsed: int)
    requires 0 <= elapsed
    ensures Fields(elapsed).millis == elapsed % MillisPerSecond
    ensures ParseClock(Clock(elapsed)).Some?
    ensures ParseClock(Clock(elapsed)).value.seconds == elapsed / MillisPerSecond
    ensures ParseClock(Clock(elapsed)).value.width == 0
  {
    var c := Fields(elapsed);
    FieldsDecompose(elapsed);
    JavaArith.DivModUnique(elapsed, MillisPerSecond, (c.hours * 60 + c.minutes) * 60 + c.seconds, c.millis);
    ParseLongClockWithoutFraction(PadToTwo(c.hours), PadToTwo(c.minutes), PadToTwo(c.seconds));
  }

  /** The hours, minutes and seconds fields are the whole hours, the whole
      minutes past the hour and the whole seconds past the minute. */
  lemma ClockFieldsOf(elapsed: int)
    requires 0 <= elapsed
    ensures Fields(elapsed).hours == elapsed / MillisPerHour
    ensures Fields(elapsed).minutes == (elapsed / MillisPerMinute) % 60
    ensures Fields(elapsed).seconds == (elapsed / MillisPerSecond) % 60
  {
    var c := Fields(elapsed);
    FieldsDecompose(elapsed);
    JavaArith.DivModUnique(elapsed, MillisPerHour, c.hours, c.minutes * MillisPerMinute + c.seconds * MillisPerSecond + c.millis);
    JavaArith.DivModUnique(elapsed, MillisPerMinute, c.hours * 60 + c.minutes, c.seconds * MillisPerSecond + c.millis);
    JavaArith.DivModUnique(elapsed, MillisPerSecond, (c.hours * 60 + c.minutes) * 60 + c.seconds, c.millis);
    JavaArith.DivModUnique(c.hours * 60 + c.minutes, 60, c.hours, c.minutes);
    JavaArith.DivModUnique((c.hours * 60 + c.minutes) * 60 + c.seconds, 60, c.hours * 60 + c.minutes, c.seconds);
  }

  /** Below 100 hours the text is `HH:MM:SS`, then `.` and the millisecond
      digits when asked for: the three two-digit fields are the whole hours,
      the minutes past the hour and the seconds past the minute, and the
      digits after the dot are the residual milliseconds. */
  lemma FormatFields(elapsed: int, wantMsec: bool)
    requires 0 <= elapsed < 100 * MillisPerHour
    ensures var s := Format(elapsed, wantMsec);
      && |s| == (if !wantMsec then 8 else if elapsed % MillisPerSecond == 10 then 13 else 12)
      && s[2] == ':' && s[5] == ':'
      && AllDigits(s[0..2]) && ValueOf(s[0..2]) == elapsed / MillisPerHour
      && AllDigits(s[3..5]) && ValueOf(s[3..5]) == (elapsed / MillisPerMinute) % 60
      && AllDigits(s[6..8]) && ValueOf(s[6..8]) == (elapsed / MillisPerSecond) % 60
      && (wantMsec ==> s[8] == '.' && AllDigits(s[9..]) && ValueOf(s[9..]) == elapsed % MillisPerSecond)
  {
    var c := Fields(elapsed);
    FieldsDecompose(elapsed);
    ClockFieldsOf(elapsed);
    ClockRoundTrip(elapsed);
    assert c.hours >= 100 ==> c.hours * MillisPerHour >= 100 * MillisPerHour;
    var h, m, sec := PadToTwo(c.hours), PadToTwo(c.minutes), PadToTwo(c.seconds);
    var suffix := if wantMsec then MillisSuffixAsWritten(c.millis) else "";
    var s := Format(elapsed, wantMsec);
    assert s == h + ":" + m + ":" + sec + suffix;
    assert s[0..2] == h;
    assert s[3..5] == m;
    assert s[6..8] == sec;
    assert s[8..] == suffix;
    if wantMsec {
      assert s[9..] == suffix[1..];
    }
  }

  /** The clock followed by a dot and digits reads back as the clock's
      seconds and the digits as a fraction. */
  lemma ClockWithFraction(elapsed: int, suffix: string)
    requires 0 <= elapsed
    requires 2 <= |suffix| && suffix[0] == '.' && AllDigits(suffix[1..])
    ensures ParseClock(Clock(elapsed) + suffix).Some?
    ensures ParseClock(Clock(elapsed) + suffix).value.seconds == elapsed / MillisPerSecond
    ensures ParseClock(Clock(elapsed) + suffix).value.fraction == ValueOf(suffix[1..])
    ensures ParseClock(Clock(elapsed) + suffix).value.width == |suffix| - 1
  {
    var c := Fields(elapsed);
    FieldsDecompose(elapsed);
    JavaArith.DivModUnique(elapsed, MillisPerSecond, (c.hours * 60 + c.minutes) * 60 + c.seconds, c.millis);
    var h, m, s := PadToTwo(c.hours), PadToTwo(c.minutes), PadToTwo(c.seconds);
    assert Clock(elapsed) + suffix == h + ":" + m + ":" + s + "." + suffix[1..];
    ParseLongClock(h, m, s, suffix[1..]);
  }

  /** Reading the source's text of a non-negative elapsed time back gives
      its whole seconds and, when asked for, its milliseconds: three digits,
      except four at a residual of 10, which therefore reads as a tenth of
      the time. */
  lemma FormatRoundTrip(elapsed: int, wantMsec: bool)
    requires 0 <= elapsed
    ensures ParseClock(Format(elapsed, wantMsec)).Some?
    ensures ParseClock(Format(elapsed, wantMsec)).value.seconds == elapsed / MillisPerSecond
    ensures ParseClock(Format(elapsed, wantMsec)).value.fraction == if wantMsec then elapsed % MillisPerSecond else 0
    ensures ParseClock(Format(elapsed, wantMsec)).value.width ==
              if !wantMsec then 0 else if elapsed % MillisPerSecond == 10 then 4 else 3
  {
    ClockRoundTrip(elapsed);
    FieldsDecompose(elapsed);
    if wantMsec {
      ClockWithFraction(elapsed, MillisSuffixAsWritten(Fields(elapsed).millis));
    } else {
      assert Format(elapsed, false) == Clock(elapsed);
    }
  }

  /** Reading the corrected text back always gives the milliseconds with
      three digits. */
  lemma FormatCorrectedRoundTrip(elapsed: int, wantMsec: bool)
    requires 0 <= elapsed
    ensures ParseClock(FormatCorrected(elapsed, wantMsec)).Some?
    ensures ParseClock(FormatCorrected(elapsed, wantMsec)).value.seconds == elapsed / MillisPerSecond
    ensures ParseClock(FormatCorrected(elapsed, wantMsec)).value.fraction == if wantMsec then elapsed % MillisPerSecond else 0
    ensures ParseClock(FormatCorrected(elapsed, wantMsec)).value.width == if wantMsec then 3 else 0
  {
    ClockRoundTrip(elapsed);
    FieldsDecompose(elapsed);
    if wantMsec {
      ClockWithFraction(elapsed, MillisSuffix(Fields(elapsed).millis));
    } else {
      assert FormatCorrected(elapsed, false) == Clock(elapsed);
    }
  }

  /** Below 100 hours the clock is exactly `HH:MM:SS`; the source's text
      with milliseconds has 12 characters, 13 at a residual of 10. */
  lemma FormatWidth(elapsed: int)
    requires 0 <= elapsed < 100 * MillisPerHour
    ensures |Format(elapsed, false)| == 8
    ensures |Format(elapsed, true)| == if elapsed % MillisPerSecond == 10 then 13 else 12
    ensures |FormatCorrected(elapsed, true)| == 12
  {
    FieldsDecompose(elapsed);
    ClockRoundTrip(elapsed);
    var c := Fields(elapsed);
    assert c.hours >= 100 ==> c.hours * MillisPerHour >= 100 * MillisPerHour;
  }

  /** `toString(boolean)`: the elapsed time of the watch, formatted; a watch
      that has not been stopped prints zero. */
  function ToString(w: Watch, wantMsec: bool): (s: string)
    ensures 0 <= GetElapsed(w) ==> ParseClock(s).Some? && ParseClock(s).value.seconds == GetElapsed(w) / MillisPerSecond
    ensures 0 <= GetElapsed(w) ==> ParseClock(s).Some? && ParseClock(s).value.fraction == if wantMsec then GetElapsed(w) % MillisPerSecond else 0
    ensures 0 <= GetElapsed(w) ==>
              ParseClock(s).Some? && ParseClock(s).value.width == if !wantMsec then 0 else if GetElapsed(w) % MillisPerSecond == 10 then 4 else 3
    ensures 0 <= GetElapsed(w) < 100 * MillisPerHour ==>
              && |s| == (if !wantMsec then 8 else if GetElapsed(w) % MillisPerSecond == 10 then 13 else 12)
              && s[2] == ':' && s[5] == ':'
              && AllDigits(s[0..2]) && ValueOf(s[0..2]) == GetElapsed(w) / MillisPerHour
              && AllDigits(s[3..5]) && ValueOf(s[3..5]) == (GetElapsed(w) / MillisPerMinute) % 60
              && AllDigits(s[6..8]) && ValueOf(s[6..8]) == (GetElapsed(w) / MillisPerSecond) % 60
              && (wantMsec ==> s[8] == '.' && AllDigits(s[9..]) && ValueOf(s[9..]) == GetElapsed(w) % MillisPerSecond)
    ensures w.stop == 0 ==> s == if wantMsec then "00:00:00.000" else "00:00:00"
  {
    var e := GetElapsed(w);
    if 0 <= e then
      FormatRoundTrip(e, wantMsec);
      if e < 100 * MillisPerHour then
        FormatFields(e, wantMsec);
        if e == 0 then
          FormatOfZero(wantMsec);
          Format(e, wantMsec)
        else
          Format(e, wantMsec)
      else
        Format(e, wantMsec)
    else
      Format(e, wantMsec)
  }

  /** No elapsed time prints as zeros, with or without milliseconds. */
  lemma FormatOfZero(wantMsec: bool)
    ensures Format(0, wantMsec) == if wantMsec then "00:00:00.000" else "00:00:00"
  {
    ClockOfZero();
    ZeroSuffix();
    ZerosJoined(Clock(0), if wantMsec then MillisSuffixAsWritten(Fields(0).millis) else "", wantMsec);
  }

  lemma ZerosJoined(clock: string, suffix: string, wantMsec: bool)
    requires clock == "00:00:00" && suffix == if wantMsec then ".000" else ""
    ensures clock + suffix == if wantMsec then "00:00:00.000" else "00:00:00"
  {
  }

  lemma ZeroSuffix()
    ensures MillisSuffixAsWritten(0) == ".000"
  {
    assert Digits(0) == "0";
    assert LongToString(0) == "0";
  }

  /** No elapsed time reads as midnight with no residual. */
  lemma ClockOfZero()
    ensures Clock(0) == "00:00:00" && Fields(0).millis == 0
  {
    FieldsOfZero();
    ClockOfZeroFields(0);
    ZeroClockText();
  }

  lemma ClockOfZeroFields(elapsed: int)
    requires Fields(elapsed).hours == 0 && Fields(elapsed).minutes == 0 && Fields(elapsed).seconds == 0
    ensures Clock(elapsed) == PadToTwo(0) + ":" + PadToTwo(0) + ":" + PadToTwo(0)
  {
  }

  lemma ZeroClockText()
    ensures PadToTwo(0) + ":" + PadToTwo(0) + ":" + PadToTwo(0) == "00:00:00"
  {
    assert Digits(0) == "0";
    assert PadToTwo(0) == "00";
  }

  lemma FieldsOfZero()
    ensures Fields(0).hours == 0 && Fields(0).minutes == 0 && Fields(0).seconds == 0 && Fields(0).millis == 0
  {
    QuotOfNatural(0, MillisPerHour);
    QuotOfNatural(0, MillisPerMinute);
    QuotOfNatural(0, MillisPerSecond);
  }
}

=== FILE: time_units.dfy ===
/** The fixed units of `java.time` and of the two clocks the watches read,
    defined once for every model. */
module TimeUnits {
  const NanosPerMilli: int := 1_000_000
  const NanosPerSecond: int := 1_000_000_000
  const NanosPerMinute: int := 60_000_000_000
  const NanosPerHour: int := 3_600_000_000_000
  const NanosPerDay: int := 86_400_000_000_000

  const MillisPerSecond: int := 1000
  const MillisPerMinute: int := 60_000
  const MillisPerHour: int := 3_600_000
}

=== FILE: time_utils.dfy ===
/** Interval alignment (TimeUtils.alignWithInterval): floors a timestamp onto
    the grid `origin + k * interval`.

    Instants are integer nanoseconds since the epoch. An interval is a
    calendar period plus a fixed duration; a non-zero period is handled by
    stepping in the time zone's calendar, a duration-only interval by integer
    arithmetic with a millisecond estimate and a short correction loop. */
module TimeUtils {
  import opened Results
  import opened JavaArith
  import opened TimeUnits

  /** Why an alignment throws: a null argument (with the message given to
      `Objects.requireNonNull`), or the `ArithmeticException` of dividing by a
      millisecond count of zero. */
  datatype AlignError = NullArgument(message: string) | DivisionByZero

  /** `Instant.toEpochMilli`: the millisecond containing the instant. */
  function EpochMilli(t: int): (ms: int)
    ensures ms * NanosPerMilli <= t < ms * NanosPerMilli + NanosPerMilli
  {
    t / NanosPerMilli
  }

  // ---------------------------------------------------------------------
  // Exact decimals (java.math.BigDecimal), as far as `toSeconds` needs them
  // ---------------------------------------------------------------------

  /** A `BigDecimal` whose value is `unscaled * 10^-scale`. */
  datatype BigDecimal = BigDecimal(unscaled: int, scale: nat)

  /** The decimal `d` has the value `num / den`. */
  ghost predicate Denotes(d: BigDecimal, num: int, den: int)
  {
    d.unscaled * den == num * Pow10(d.scale)
  }

  /** `toSeconds`: the interval's length in seconds, exactly. */
  function ToSeconds(intervalNanos: int): (seconds: BigDecimal)
    ensures Denotes(seconds, intervalNanos, NanosPerSecond)
  {
    BigDecimal(intervalNanos, 9)
  }

  /** `BigDecimal.multiply` by an integer. */
  function Multiply(d: BigDecimal, k: int): (p: BigDecimal)
    ensures forall num, den {:trigger Denotes(d, num, den)} :: Denotes(d, num, den) ==> Denotes(p, num * k, den)
  {
    BigDecimal(d.unscaled * k, d.scale)
  }

  /** `BigDecimal.longValue`: the fractional part is discarded. */
  function LongValue(d: BigDecimal): int
  {
    Quot(d.unscaled, Pow10(d.scale))
  }

  lemma ScaledQuotient(n: nat)
    ensures Quot(n * 1000, NanosPerSecond) == n / NanosPerMilli
  {
    DivModUnique(n * 1000, NanosPerSecond, n / NanosPerMilli, (n % NanosPerMilli) * 1000);
  }

  /** The divisor of the millisecond estimate,
      `toSeconds(interval) * 1000` truncated to a long: the interval in whole
      milliseconds, rounded toward zero. It is zero exactly for intervals
      shorter than a millisecond. */
  function IntervalMillis(intervalNanos: int): (ms: int)
    ensures 0 <= intervalNanos ==> ms == intervalNanos / NanosPerMilli
    ensures intervalNanos < 0 ==> ms == -((-intervalNanos) / NanosPerMilli)
    ensures ms == 0 <==> -NanosPerMilli < intervalNanos < NanosPerMilli
  {
    var seconds := ToSeconds(intervalNanos);
    assert Pow10(seconds.scale) == NanosPerSecond;
    if 0 <= intervalNanos then
      ScaledQuotient(intervalNanos);
      LongValue(Multiply(seconds, 1000))
    else
      ScaledQuotient(-intervalNanos);
      LongValue(Multiply(seconds, 1000))
  }

  // ---------------------------------------------------------------------
  // The alignment grid
  // ---------------------------------------------------------------------

  /** `x` is `origin + k * interval` for some integer `k`. */
  ghost predicate OnGrid(x: int, origin: int, interval: int)
    requires 0 < interval
  {
    (x - origin) % interval == 0
  }

  /** Reference definition of the floor: the greatest grid point that is not
      after `t`, in closed form. */
  function GridFloor(t: int, origin: int, interval: int): (f: int)
    requires 0 < interval
    ensures f <= t < f + interval
    ensures OnGrid(f, origin, interval)
  {
    var k := (t - origin) / interval;
    DivModUnique(k * interval, interval, k, 0);
    origin + k * interval
  }

  /** A grid point within one interval below `t` is the floor of `t`. */
  lemma GridFloorOfGridPoint(t: int, origin: int, interval: int, k: int)
    requires 0 < interval
    requires origin + k * interval <= t < origin + k * interval + interval
    ensures GridFloor(t, origin, interval) == origin + k * interval
  {
    DivModUnique(t - origin, interval, k, t - origin - k * interval);
  }

  /** No grid point that is not after `t` lies above the floor. */
  lemma GridFloorIsGreatest(t: int, origin: int, interval: int, k: int)
    requires 0 < interval
    requires origin + k * interval <= t
    ensures origin + k * interval <= GridFloor(t, origin, interval)
  {
    var q := (t - origin) / interval;
    assert GridFloor(t, origin, interval) == origin + q * interval;
    assert k - q >= 1 ==> (k - q) * interval >= interval;
  }

  lemma GridPointIndex(x: int, origin: int, interval: int)
    requires 0 < interval
    requires OnGrid(x, origin, interval)
    ensures x == origin + ((x - origin) / interval) * interval
  {
  }

  /** Aligning an aligned instant changes nothing. */
  lemma GridFloorIdempotent(t: int, origin: int, interval: int)
    requires 0 < interval
    ensures GridFloor(GridFloor(t, origin, interval), origin, interval) == GridFloor(t, origin, interval)
  {
    var f := GridFloor(t, origin, interval);
    GridPointIndex(f, origin, interval);
    GridFloorOfGridPoint(f, origin, interval, (f - origin) / interval);
  }

  /** Moving forward from a boundary by less than one interval stays in its
      bucket; moving by exactly one interval reaches the next boundary. */
  lemma GridFloorBuckets(b: int, origin: int, interval: int, d: int)
    requires 0 < interval
    requires OnGrid(b, origin, interval)
    requires 0 <= d < interval
    ensures GridFloor(b + d, origin, interval) == b
    ensures GridFloor(b + interval, origin, interval) == b + interval
  {
    var k := (b - origin) / interval;
    GridPointIndex(b, origin, interval);
    GridFloorOfGridPoint(b + d, origin, interval, k);
    GridFloorOfGridPoint(b + interval, origin, interval, k + 1);
  }

  /** Origins that differ by whole intervals define the same grid. */
  lemma GridFloorOriginShift(t: int, origin: int, interval: int, k: int)
    requires 0 < interval
    ensures GridFloor(t, origin + k * interval, interval) == GridFloor(t, origin, interval)
  {
    var f := GridFloor(t, origin + k * interval, interval);
    var j := (f - (origin + k * interval)) / interval;
    GridPointIndex(f, origin + k * interval, interval);
    assert f == origin + (k + j) * interval;
    GridFloorOfGridPoint(t, origin, interval, k + j);
  }

  // ---------------------------------------------------------------------
  // Duration-only alignment (alignWithInterval(Instant, Instant, Duration))
  // ---------------------------------------------------------------------

  /** The number of whole intervals between origin and timestamp, estimated
      on their millisecond values with Java's truncating division. */
  function EstimatedBeats(t: int, origin: int, interval: int): (beats: int)
    requires IntervalMillis(interval) != 0
    ensures var delta, m := EpochMilli(t) - EpochMilli(origin), IntervalMillis(interval);
      0 <= delta && 0 < m ==> 0 <= beats && beats * m <= delta < beats * m + m
    ensures var delta, m := EpochMilli(t) - EpochMilli(origin), IntervalMillis(interval);
      0 <= delta && m < 0 ==> beats <= 0 && delta < (1 - beats) * (-m)
  {
    var delta, m := EpochMilli(t) - EpochMilli(origin), IntervalMillis(interval);
    if 0 <= delta then
      TruncatedQuotient(delta, m);
      Quot(delta, m)
    else
      Quot(delta, m)
  }

  /** Java's division of a non-negative count by a positive or a negative
      divisor. */
  lemma TruncatedQuotient(delta: int, m: int)
    requires 0 <= delta && m != 0
    ensures 0 < m ==> 0 <= Quot(delta, m) && Quot(delta, m) * m <= delta < Quot(delta, m) * m + m
    ensures m < 0 ==> Quot(delta, m) <= 0 && delta < (1 - Quot(delta, m)) * (-m)
  {
    var q := Quot(delta, m);
    QuotSign(delta, m);
    assert (1 - q) * (-m) == q * m - m;
  }



  /** Where the forward direction jumps before correcting:
      `origin + (estimate - 1) * interval`. */
  function JumpTarget(t: int, origin: int, interval: int): int
    requires IntervalMillis(interval) != 0
  {
    origin + (EstimatedBeats(t, origin, interval) - 1) * interval
  }

  /** What the duration overload returns: the timestamp itself at the
      origin; a division by zero for an interval (of either sign) under a
      millisecond; the floor before the origin; after the origin the floor
      when the jump lands before the timestamp, and otherwise the jump
      target itself on an exact hit or one interval "before" it, which for a
      negative interval is one interval further on. Before the origin a
      negative interval of a millisecond or more has no outcome here:
      subtracting it moves the aligned instant away from the timestamp,
      until java.time's bounded instant range is left. */
  ghost predicate DurationOutcome(t: int, origin: int, interval: int, r: Result<int, AlignError>)
  {
    if t == origin then r == Ok(t)
    else if IntervalMillis(interval) == 0 then r == Err(DivisionByZero)
    else if t < origin then 0 < interval && r == Ok(GridFloor(t, origin, interval))
    else
      var jump := JumpTarget(t, origin, interval);
      if 0 < interval && jump < t then r == Ok(GridFloor(t, origin, interval))
      else if jump == t then r == Ok(t)
      else r == Ok(jump - interval)
  }

  /** The backward loop: step down from the origin one interval at a time
      until the timestamp is no longer before the aligned instant. */
  method StepBack(timestamp: int, origin: int, interval: int) returns (aligned: int)
    requires 0 < interval
    requires timestamp < origin
    ensures aligned == GridFloor(timestamp, origin, interval)
  {
    aligned := origin;
    ghost var k := 0;
    while timestamp < aligned
      invariant aligned == origin + k * interval
      invariant timestamp < aligned + interval
      decreases aligned - timestamp
    {
      assert (k - 1) * interval == k * interval - interval;
      aligned := aligned - interval;
      k := k - 1;
    }
    GridFloorOfGridPoint(timestamp, origin, interval, k);
  }

  /** The forward correction: from the jump target, step up one interval at
      a time while before the timestamp; keep an exact hit, otherwise step
      back once. */
  method StepForward(timestamp: int, origin: int, interval: int, jump: int, ghost beats: int) returns (aligned: int)
    requires interval != 0
    requires interval < 0 ==> timestamp < jump
    requires jump == origin + beats * interval
    ensures 0 < interval && jump < timestamp ==> aligned == GridFloor(timestamp, origin, interval)
    ensures jump == timestamp ==> aligned == timestamp
    ensures timestamp < jump ==> aligned == jump - interval
  {
    aligned := jump;
    ghost var k := beats;
    while aligned < timestamp
      invariant aligned == origin + k * interval
      invariant aligned == jump || (0 < interval && jump < timestamp && aligned - interval < timestamp)
      decreases timestamp - aligned
    {
      assert (k + 1) * interval == k * interval + interval;
      aligned := aligned + interval;
      k := k + 1;
    }
    ForwardCorrection(timestamp, origin, interval, jump, aligned, k);
    if aligned != timestamp {
      aligned := aligned - interval;
    }
  }

  /** Where the forward loop stops (the first grid point at or after the
      timestamp, or the jump target itself), the final step back gives the
      floor. */
  lemma ForwardCorrection(timestamp: int, origin: int, interval: int, jump: int, aligned: int, k: int)
    requires interval != 0
    requires aligned == origin + k * interval && timestamp <= aligned
    requires aligned == jump || (0 < interval && jump < timestamp && aligned - interval < timestamp)
    ensures var result := if aligned != timestamp then aligned - interval else aligned;
      (0 < interval && jump < timestamp ==> result == GridFloor(timestamp, origin, interval))
      && (jump == timestamp ==> result == timestamp)
      && (timestamp < jump ==> result == jump - interval)
  {
    if 0 < interval && jump < timestamp {
      if aligned == timestamp {
        GridFloorOfGridPoint(timestamp, origin, interval, k);
      } else {
        assert aligned - interval == origin + (k - 1) * interval;
        GridFloorOfGridPoint(timestamp, origin, interval, k - 1);
      }
    }
  }

  /** The algorithm of the duration overload, on non-null arguments, on
      every input for which it returns. */
  method DurationAlign(timestamp: int, origin: int, interval: int) returns (r: Result<int, AlignError>)
    requires !(timestamp < origin && interval <= -NanosPerMilli)
    ensures DurationOutcome(timestamp, origin, interval, r)
  {
    if origin == timestamp {
      return Ok(timestamp);
    }
    var intervalMillis := IntervalMillis(interval);
    if intervalMillis == 0 {
      return Err(DivisionByZero);
    }
    var estimatedBeats := Quot(EpochMilli(timestamp) - EpochMilli(origin), intervalMillis);
    var aligned;
    if timestamp < origin {
      aligned := StepBack(timestamp, origin, interval);
    } else {
      assert estimatedBeats == EstimatedBeats(timestamp, origin, interval);
      if interval < 0 {
        NegativeJumpIsAbove(timestamp, origin, interval);
      }
      aligned := StepForward(timestamp, origin, interval, origin + (estimatedBeats - 1) * interval, estimatedBeats - 1);
    }
    return Ok(aligned);
  }

  /** The duration overload with its null checks. */
  method AlignWithDuration(timestamp: Option<int>, origin: Option<int>, interval: Option<int>)
    returns (r: Result<int, AlignError>)
    requires timestamp.Some? && origin.Some? && interval.Some? ==>
               !(timestamp.value < origin.value && interval.value <= -NanosPerMilli)
    ensures timestamp.None? ==> r == Err(NullArgument("timestamp must be specified"))
    ensures timestamp.Some? && origin.None? ==> r == Err(NullArgument("origin must be specified"))
    ensures timestamp.Some? && origin.Some? && interval.None? ==> r == Err(NullArgument("interval must be specified"))
    ensures timestamp.Some? && origin.Some? && interval.Some? ==>
              DurationOutcome(timestamp.value, origin.value, interval.value, r)
  {
    if timestamp.None? {
      return Err(NullArgument("timestamp must be specified"));
    }
    if origin.None? {
      return Err(NullArgument("origin must be specified"));
    }
    if interval.None? {
      return Err(NullArgument("interval must be specified"));
    }
    r := DurationAlign(timestamp.value, origin.value, interval.value);
  }

  /** With a negative interval of a millisecond or more, after the origin,
      the estimate is zero or negative and the jump lands strictly after the
      timestamp, so the forward loop never runs. */
  lemma NegativeJumpIsAbove(t: int, origin: int, interval: int)
    requires interval <= -NanosPerMilli
    requires origin < t
    ensures IntervalMillis(interval) != 0
    ensures t < JumpTarget(t, origin, interval)
  {
    var m := (-interval) / NanosPerMilli;
    assert IntervalMillis(interval) == -m;
    var delta := EpochMilli(t) - EpochMilli(origin);
    assert 0 <= delta;
    var q := delta / m;
    assert EstimatedBeats(t, origin, interval) == -q;
    assert JumpTarget(t, origin, interval) == origin + (q + 1) * (-interval);
    assert delta + 1 <= (q + 1) * m;
    assert t - origin < (delta + 1) * NanosPerMilli;
    assert (delta + 1) * NanosPerMilli <= (q + 1) * m * NanosPerMilli;
    assert m * NanosPerMilli <= -interval;
    assert (q + 1) * m * NanosPerMilli <= (q + 1) * (-interval);
  }

  /** A negative interval after the origin: with an interval of -1 ms,
      origin 0 and timestamp 10 ms the estimate is -10 beats, the jump lands
      at 11 ms, and the step "back" by -1 ms returns 12 ms, after the
      timestamp. */
  lemma NegativeIntervalOvershoot(r: Result<int, AlignError>)
    requires DurationOutcome(10_000_000, 0, -1_000_000, r)
    ensures r == Ok(12_000_000)
    ensures 10_000_000 < r.value
  {
    assert IntervalMillis(-1_000_000) == -1;
    assert EstimatedBeats(10_000_000, 0, -1_000_000) == -10;
  }

  /** With an interval of whole milliseconds the millisecond estimate never
      overshoots: the jump lands strictly before the timestamp. */
  lemma WholeMillisJumpIsBelow(t: int, origin: int, interval: int)
    requires 0 < interval && interval % NanosPerMilli == 0
    requires origin < t
    ensures IntervalMillis(interval) != 0
    ensures JumpTarget(t, origin, interval) < t
  {
    var c := IntervalMillis(interval);
    assert interval == c * NanosPerMilli;
    var delta := EpochMilli(t) - EpochMilli(origin);
    assert 0 <= delta;
    var est := EstimatedBeats(t, origin, interval);
    assert est * c <= delta;
    assert (est - 1) * interval == est * c * NanosPerMilli - interval;
    assert est * c * NanosPerMilli <= delta * NanosPerMilli;
    assert delta * NanosPerMilli < t - origin + NanosPerMilli;
  }

  /** For intervals of whole milliseconds the duration path computes the
      floor: at or before the timestamp, on the grid, and less than one
      interval behind. */
  lemma DurationAlignsToFloor(t: int, origin: int, interval: int, r: Result<int, AlignError>)
    requires 0 < interval && interval % NanosPerMilli == 0
    requires DurationOutcome(t, origin, interval, r)
    ensures r == Ok(GridFloor(t, origin, interval))
  {
    if t == origin {
      GridFloorOfGridPoint(t, origin, interval, 0);
    } else if origin < t {
      WholeMillisJumpIsBelow(t, origin, interval);
    }
  }

  /** For any interval of at least a millisecond the result is a grid point
      less than one interval behind the timestamp; only the bound
      `result <= timestamp` needs whole milliseconds. */
  lemma DurationStaysOnGrid(t: int, origin: int, interval: int, r: Result<int, AlignError>)
    requires NanosPerMilli <= interval
    requires DurationOutcome(t, origin, interval, r)
    ensures r.Ok?
    ensures OnGrid(r.value, origin, interval)
    ensures t < r.value + interval
  {
    if t == origin {
      GridFloorOfGridPoint(t, origin, interval, 0);
    } else if origin < t {
      JumpOnGrid(t, origin, interval);
    }
  }

  /** The jump target and the grid point before it lie on the grid. */
  lemma JumpOnGrid(t: int, origin: int, interval: int)
    requires 0 < interval && IntervalMillis(interval) != 0
    ensures OnGrid(JumpTarget(t, origin, interval), origin, interval)
    ensures OnGrid(JumpTarget(t, origin, interval) - interval, origin, interval)
  {
    var jump := JumpTarget(t, origin, interval);
    var k := EstimatedBeats(t, origin, interval) - 1;
    assert jump - origin == k * interval;
    assert jump - interval - origin == (k - 1) * interval;
    DivModUnique(jump - origin, interval, k, 0);
    DivModUnique(jump - interval - origin, interval, k - 1, 0);
  }

  /** Re-aligning the result of the duration path is a no-op. */
  lemma DurationAlignIdempotent(t: int, origin: int, interval: int, r: Result<int, AlignError>, r2: Result<int, AlignError>)
    requires 0 < interval && interval % NanosPerMilli == 0
    requires DurationOutcome(t, origin, interval, r)
    ensures r.Ok?
    ensures DurationOutcome(r.value, origin, interval, r2) ==> r2 == r
  {
    DurationAlignsToFloor(t, origin, interval, r);
    if DurationOutcome(r.value, origin, interval, r2) {
      DurationAlignsToFloor(r.value, origin, interval, r2);
      GridFloorIdempotent(t, origin, interval);
    }
  }

  /** Why the precision is limited to milliseconds: with an interval of
      1.5 ms, origin 0 and timestamp 10 ms the estimate (10 / 1 beats)
      overshoots, the jump lands at 13.5 ms, and the result is 12 ms, after
      the timestamp. */
  lemma FractionalMillisOvershoot(r: Result<int, AlignError>)
    requires DurationOutcome(10_000_000, 0, 1_500_000, r)
    ensures r == Ok(12_000_000)
    ensures 10_000_000 < r.value
  {
    assert IntervalMillis(1_500_000) == 1;
    assert EstimatedBeats(10_000_000, 0, 1_500_000) == 10;
  }

  // ---------------------------------------------------------------------
  // Calendar alignment (_alignWithInterval)
  // ---------------------------------------------------------------------

  /** How `ZonedDateTime.plus(interval)` and `minus(interval)` move an
      instant in a given zone. Both are abstract: zone rules, month lengths
      and daylight-saving gaps all live inside them. */
  datatype Calendar = Calendar(plus: int -> int, minus: int -> int)

  /** The steps of one interval move every instant: `plus` strictly forward
      and `minus` strictly back, at each instant and not only on average, so
      this is more than a test of the interval's sign. */
  ghost predicate Advancing(c: Calendar)
  {
    && (forall x :: x < c.plus(x))
    && (forall x :: c.minus(x) < x)
  }

  /** `f` applied `n` times to `x`. */
  function Iterate(f: int -> int, x: int, n: nat): int
  {
    if n == 0 then x else f(Iterate(f, x, n - 1))
  }

  /** The loop of the calendar path reaches the timestamp: before the origin
      some backward step from the origin is not after the timestamp;
      otherwise some forward step is not before it (at the origin no step is
      taken). When it fails the walk either stands still for ever or moves
      away until java.time's bounded instant range is left. */
  ghost predicate WalkEnds(t: int, origin: int, c: Calendar)
  {
    if t < origin then exists k: nat :: Iterate(c.minus, origin, k) <= t
    else exists k: nat :: t <= Iterate(c.plus, origin, k)
  }

  /** What the calendar path returns: the timestamp at the origin; before
      the origin, the first of `origin, minus(origin), minus(minus(origin)),
      ...` that is not after the timestamp; after the origin, the first of
      `origin, plus(origin), ...` that is not before the timestamp when it
      hits the timestamp exactly, and one `minus` of it otherwise. */
  ghost predicate CalendarOutcome(t: int, origin: int, c: Calendar, r: int)
  {
    if t == origin then r == t
    else if t < origin then
      exists k: nat :: 0 < k && r == Iterate(c.minus, origin, k) && r <= t
                        && (forall j: nat :: j < k ==> t < Iterate(c.minus, origin, j))
    else
      exists k: nat :: 0 < k && t <= Iterate(c.plus, origin, k)
                        && (forall j: nat :: j < k ==> Iterate(c.plus, origin, j) < t)
                        && r == (if Iterate(c.plus, origin, k) == t then t else c.minus(Iterate(c.plus, origin, k)))
  }

  /** The stepping algorithm used when the interval has a calendar period,
      on every input whose loop ends. */
  method CalendarAlign(timestamp: int, origin: int, c: Calendar) returns (r: int)
    requires WalkEnds(timestamp, origin, c)
    ensures CalendarOutcome(timestamp, origin, c, r)
  {
    if origin == timestamp {
      return timestamp;
    }
    var aligned := origin;
    ghost var k: nat := 0;
    if timestamp < origin {
      ghost var bound: nat :| Iterate(c.minus, origin, bound) <= timestamp;
      while timestamp < aligned
        invariant aligned == Iterate(c.minus, origin, k)
        invariant forall j: nat :: j < k ==> timestamp < Iterate(c.minus, origin, j)
        invariant k <= bound
        decreases bound - k
      {
        aligned := c.minus(aligned);
        k := k + 1;
      }
    } else {
      ghost var bound: nat :| timestamp <= Iterate(c.plus, origin, bound);
      while aligned < timestamp
        invariant aligned == Iterate(c.plus, origin, k)
        invariant forall j: nat :: j < k ==> Iterate(c.plus, origin, j) < timestamp
        invariant k <= bound
        decreases bound - k
      {
        aligned := c.plus(aligned);
        k := k + 1;
      }
      if aligned != timestamp {
        aligned := c.minus(aligned);
      }
    }
    return aligned;
  }

  /** The step count behind a forward calendar outcome. */
  lemma ForwardSteps(t: int, origin: int, c: Calendar, r: int) returns (k: nat)
    requires origin < t
    requires CalendarOutcome(t, origin, c, r)
    ensures 0 < k && Iterate(c.plus, origin, k - 1) < t <= Iterate(c.plus, origin, k)
    ensures r == if Iterate(c.plus, origin, k) == t then t else c.minus(Iterate(c.plus, origin, k))
  {
    k :| 0 < k && t <= Iterate(c.plus, origin, k)
         && (forall j: nat :: j < k ==> Iterate(c.plus, origin, j) < t)
         && r == (if Iterate(c.plus, origin, k) == t then t else c.minus(Iterate(c.plus, origin, k)));
    assert Iterate(c.plus, origin, k - 1) < t;
  }

  /** The step count behind a backward calendar outcome. */
  lemma BackwardSteps(t: int, origin: int, c: Calendar, r: int) returns (k: nat)
    requires t < origin
    requires CalendarOutcome(t, origin, c, r)
    ensures 0 < k && r == Iterate(c.minus, origin, k) && r <= t < Iterate(c.minus, origin, k - 1)
  {
    k :| 0 < k && r == Iterate(c.minus, origin, k) && r <= t
         && (forall j: nat :: j < k ==> t < Iterate(c.minus, origin, j));
    assert t < Iterate(c.minus, origin, k - 1);
  }

  /** At the origin the walk has ended before it starts, whatever the steps. */
  lemma WalkEndsAtOrigin(t: int, c: Calendar)
    ensures WalkEnds(t, t, c)
  {
    assert Iterate(c.plus, t, 0) == t;
  }

  /** An advancing step moves by at least one nanosecond per step. */
  lemma {:induction false} IterateDistance(c: Calendar, x: int, n: nat)
    requires Advancing(c)
    ensures x + n <= Iterate(c.plus, x, n)
    ensures Iterate(c.minus, x, n) <= x - n
  {
    if 0 < n {
      IterateDistance(c, x, n - 1);
    }
  }

  /** With steps that advance at every instant the loop always ends. */
  lemma AdvancingWalkEnds(t: int, origin: int, c: Calendar)
    requires Advancing(c)
    ensures WalkEnds(t, origin, c)
  {
    if t < origin {
      IterateDistance(c, origin, origin - t);
    } else {
      IterateDistance(c, origin, t - origin);
    }
  }

  /** Iterating an advancing step strictly increases. */
  lemma {:induction false} IterateIncreasing(f: int -> int, x: int, i: nat, j: nat)
    requires forall y :: y < f(y)
    requires i < j
    ensures Iterate(f, x, i) < Iterate(f, x, j)
  {
    if i < j - 1 {
      IterateIncreasing(f, x, i, j - 1);
    }
  }

  /** When `minus` undoes `plus`, the forward calendar path returns the last
      step `plus^k(origin)` not after the timestamp: the calendar floor. */
  lemma CalendarFloorWhenMinusInvertsPlus(t: int, origin: int, c: Calendar, r: int)
    requires Advancing(c)
    requires forall x :: c.minus(c.plus(x)) == x
    requires origin < t
    requires CalendarOutcome(t, origin, c, r)
    ensures r <= t < c.plus(r)
    ensures exists j: nat :: r == Iterate(c.plus, origin, j)
    ensures forall j: nat :: Iterate(c.plus, origin, j) <= t ==> Iterate(c.plus, origin, j) <= r
  {
    var k := ForwardSteps(t, origin, c, r);
    var top := if Iterate(c.plus, origin, k) == t then k else k - 1;
    assert r == Iterate(c.plus, origin, top);
    forall j: nat | Iterate(c.plus, origin, j) <= t
      ensures Iterate(c.plus, origin, j) <= r
    {
      if top < j {
        if j != k {
          IterateIncreasing(c.plus, origin, k, j);
        }
      } else if j < top {
        IterateIncreasing(c.plus, origin, j, top);
      }
    }
  }

  /** Before the origin the calendar path returns a point reached from the
      origin by at least one `minus`, not after the timestamp, whose
      predecessor on that walk is after it. */
  lemma CalendarBackwardIsFirstStepNotAfter(t: int, origin: int, c: Calendar, r: int)
    requires Advancing(c)
    requires t < origin
    requires CalendarOutcome(t, origin, c, r)
    ensures r <= t
    ensures (forall x :: c.plus(c.minus(x)) == x) ==> t < c.plus(r)
    ensures forall j: nat :: Iterate(c.minus, origin, j) <= t ==> Iterate(c.minus, origin, j) <= r
  {
    var k := BackwardSteps(t, origin, c, r);
    assert r == c.minus(Iterate(c.minus, origin, k - 1));
    forall j: nat | Iterate(c.minus, origin, j) <= t
      ensures Iterate(c.minus, origin, j) <= r
    {
      if j < k {
        DecreasingIterate(c.minus, origin, j, k - 1);
      } else if k < j {
        DecreasingIterate(c.minus, origin, k, j);
      }
    }
  }

  /** Iterating a retreating step strictly decreases, or stays put for zero steps. */
  lemma {:induction false} DecreasingIterate(f: int -> int, x: int, i: nat, j: nat)
    requires forall y :: f(y) < y
    requires i <= j
    ensures Iterate(f, x, j) <= Iterate(f, x, i)
    ensures i < j ==> Iterate(f, x, j) < Iterate(f, x, i)
  {
    if i < j {
      DecreasingIterate(f, x, i, j - 1);
    }
  }

  // ---------------------------------------------------------------------
  // The dispatcher (alignWithInterval(Instant, Instant, PeriodDuration, ZoneId))
  // ---------------------------------------------------------------------

  /** A calendar period of years, months and days. */
  datatype Period = Period(years: int, months: int, days: int)

  const ZeroPeriod := Period(0, 0, 0)

  /** A period plus a duration in nanoseconds. */
  datatype PeriodDuration = PeriodDuration(period: Period, duration: int)

  /** A time zone, seen through what the alignment asks of it: how an
      interval steps a zoned date-time forward and back. */
  datatype TimeZone = TimeZone(id: string, stepsOf: PeriodDuration -> Calendar)

  /** The dispatch: a non-zero period takes the calendar path even when the
      duration is non-zero too; a zero period with a non-zero duration takes
      the duration path; an all-zero interval returns the timestamp. */
  ghost predicate IntervalOutcome(t: int, origin: int, interval: PeriodDuration, zone: TimeZone, r: Result<int, AlignError>)
  {
    if interval.period != ZeroPeriod then
      r.Ok? && CalendarOutcome(t, origin, zone.stepsOf(interval), r.value)
    else if interval.duration != 0 then
      DurationOutcome(t, origin, interval.duration, r)
    else
      r == Ok(t)
  }

  method AlignWithInterval(timestamp: Option<int>, origin: Option<int>, interval: Option<PeriodDuration>, zone: Option<TimeZone>)
    returns (r: Result<int, AlignError>)
    requires timestamp.Some? && origin.Some? && interval.Some? && zone.Some? && interval.value.period == ZeroPeriod ==>
               !(timestamp.value < origin.value && interval.value.duration <= -NanosPerMilli)
    requires timestamp.Some? && origin.Some? && interval.Some? && zone.Some? && interval.value.period != ZeroPeriod ==>
               WalkEnds(timestamp.value, origin.value, zone.value.stepsOf(interval.value))
    ensures timestamp.None? ==> r == Err(NullArgument("timestamp must be specified"))
    ensures timestamp.Some? && origin.None? ==> r == Err(NullArgument("origin must be specified"))
    ensures timestamp.Some? && origin.Some? && interval.None? ==> r == Err(NullArgument("interval must be specified"))
    ensures timestamp.Some? && origin.Some? && interval.Some? && zone.None? ==>
              r == Err(NullArgument("time zone must be specified"))
    ensures timestamp.Some? && origin.Some? && interval.Some? && zone.Some? ==>
              IntervalOutcome(timestamp.value, origin.value, interval.value, zone.value, r)
  {
    if timestamp.None? {
      return Err(NullArgument("timestamp must be specified"));
    }
    if origin.None? {
      return Err(NullArgument("origin must be specified"));
    }
    if interval.None? {
      return Err(NullArgument("interval must be specified"));
    }
    if zone.None? {
      return Err(NullArgument("time zone must be specified"));
    }
    var hasPeriod := interval.value.period != ZeroPeriod;
    var hasDuration := interval.value.duration != 0;
    if hasPeriod {
      var aligned := CalendarAlign(timestamp.value, origin.value, zone.value.stepsOf(interval.value));
      r := Ok(aligned);
    } else if hasDuration {
      r := AlignWithDuration(timestamp, origin, Some(interval.value.duration));
    } else {
      r := Ok(timestamp.value);
    }
  }

  /** The `Period` overload: the period with a zero duration. */
  method AlignWithPeriod(timestamp: Option<int>, origin: Option<int>, period: Period, zone: Option<TimeZone>)
    returns (r: Result<int, AlignError>)
    requires timestamp.Some? && origin.Some? && zone.Some? && period != ZeroPeriod ==>
               WalkEnds(timestamp.value, origin.value, zone.value.stepsOf(PeriodDuration(period, 0)))
    ensures timestamp.None? ==> r == Err(NullArgument("timestamp must be specified"))
    ensures timestamp.Some? && origin.None? ==> r == Err(NullArgument("origin must be specified"))
    ensures timestamp.Some? && origin.Some? && zone.Some? && period == ZeroPeriod ==> r == Ok(timestamp.value)
    ensures timestamp.Some? && origin.Some? && zone.Some? && period != ZeroPeriod ==>
              r.Ok? && CalendarOutcome(timestamp.value, origin.value, zone.value.stepsOf(PeriodDuration(period, 0)), r.value)
    ensures timestamp.Some? && origin.Some? && zone.None? ==> r == Err(NullArgument("time zone must be specified"))
  {
    r := AlignWithInterval(timestamp, origin, Some(PeriodDuration(period, 0)), zone);
  }
}
